=== FILE: README.md ===
# Fluently Stream: a Dafny model of the player, upload, catalog and streaming logic

Fluently Stream lets a user upload videos, browse them, play them, and delete them.
This project models the logic that decides what happens at each step, as pure
functions on immutable state.

On the client (React):

- **Player** (`VideoPlayer.tsx`): the playback session. It models the mount effect that
  opens a video, and the unmount cleanup. It models the media events `loadstart`, `canplay`,
  `waiting`, `playing` and `loadedmetadata`. It classifies media errors by their
  code (section 4.8.11.1 of the HTML Standard). Retries are bounded by
  `MAX_RETRIES = 3` and use a cache-busting source URL. It also models the lookup
  of the record's title.
- **Upload** (`VideoUpload.tsx`): the MIME allow-list, drag-and-drop, the
  integer progress percentage (`Math.round`), and the success, failure and clear
  transitions.
- **Catalog** (`VideoList.tsx`): fetching on mount and whenever the refresh
  trigger changes, wholesale replacement of the list, the delete-confirm flow, and
  the precedence spinner > alert > grid.
- **Shell** (`App.tsx`): the drawer flag, the refresh trigger, the selected video,
  the current view, and what is rendered from them.

On the server (Flask):

- **Routes** (`routes.py`):
  - `allowed_file`;
  - the validation order of `upload_video` and the record it stores;
  - the status checks of `stream_video`, with the headers of its 200 and 206
    replies.
- **RangeHeader** (`routes.py`): the `Range` header search `bytes=(\d+)-(\d*)`,
  the defaults when there is no match, the conversion of the two groups by
  `int()` with CPython's 4300-digit limit, and the `Content-Range` /
  `Content-Length` arithmetic (sections 2.1, 4.1 and 4.2 of RFC 7233 define the
  formats).
- **Streaming** (`routes.py`): the `generate_range` and `generate_full` body
  loops, over the encrypted file as a byte sequence.
- **Encryption** (`encryption.py`): key and IV sizes, and space padding to the
  16-byte AES block. It covers the 64 KiB encryption read loop and the per-chunk
  IV (the base IV XOR the 16-byte big-endian chunk number). It also covers the
  three outcomes of `decrypt_chunk`: plaintext, `None`, or an exception.
- **Records** (`models.py`): the stored row, its JSON form, and the client's view
  of it.

The following become inputs or parameters:

- the network, the database, the filesystem and the clock;
- the sanitised file name, the sniffed MIME type and the random source;
- the AES-CBC primitive.

Each React handler becomes a transition function, and state updates apply
immediately and in order. A scheduled retry is a pending-timer count. An
awaited request splits its handler in two: the part before the `await` runs when
the button is pressed, and the rest runs when the answer arrives, with other
events possibly in between. This applies to the list fetch and to the delete
request.

Several behaviours of the code as written are stated and proved, not corrected:

- **Unknown id.** An unknown video id is answered with 500, not 404.
  `get_or_404` raises inside the handler's catch-all (`Routes.StreamStatuses`).
- **No range checks.** The parsed range is never checked against the file.
  `bytes=10-5` declares a length of -4, an end past the file is passed
  through, and 416 is never sent (`RangeHeader.NoBoundsCheck`,
  `Routes.StreamStatuses`).
- **Over-long positions.** A range position of more than 4300 digits, leading
  zeros included, makes `int()` raise inside the handler's catch-all, so the
  request is answered with 500 and the conversion error's text
  (`Routes.OverlongRangeIsServerError`).
- **Delete pressed twice.** The dialog's Delete button stays enabled while its
  request is out. If it is pressed twice, the first request succeeds and the
  second fails. The failure message then hides the refreshed list
  (`Catalog.DoubleConfirmHidesRefreshedList`).
- **Suffix range.** A suffix range `bytes=-n` does not match the pattern, so
  the whole file is described (`RangeHeader.SuffixRangeServesWholeFile`).
- **One chunk number for a range.** The range loop decrypts every chunk under
  the same number, `byte1 // chunk_size`. A range read in a single chunk whose
  length is not a multiple of 16 makes the decryption return `None`. The 206
  reply then has an empty body despite its `Content-Length`
  (`Streaming.GenerateRange`).
- **Range past the end.** A range that runs past the end of the file declares
  more bytes than are read (`Streaming.DeclaredLengthVsServed`).
- **Missing creation date.** The client reads `created_at`, but the server
  sends `upload_date`. So the client never has a creation date
  (`Records.ClientNeverSeesCreationDate`).

In these cases the code differs from what its messages, its UI or a first reading suggest; the model follows the code:

- **Four network errors.** Suppose four network errors occur in a row, with each
  scheduled retry firing in between. The fourth error shows
  "Error playing video: Network error occurred while loading the video".
  "Maximum retry attempts reached" appears only when a retry runs at the bound,
  for example from the Retry button (`Player.NetworkFailuresExhaustRetries`,
  `Player.RetryAtLimitOnlyReports`).
- **Overlapping fetches.** Overlapping list fetches are not coalesced. The
  response that arrives last wins (`Catalog.LastArrivalWins`).
- **One fetch per upload.** Each upload success bumps the refresh trigger by
  one, so each one causes its own fetch. Nothing debounces them
  (`Shell.TriggerCountsUploads`, `Catalog.FetchPerTriggerChange`).
- **Progress can go down.** Upload progress is bounded in [0, 100]
  (`Upload.ProgressBounded`). It is monotone only while the reported total
  stays the same (`Upload.ProgressMonotone`). After the request settles it
  returns to 0.
- **Metadata failure.** A failed metadata request sets the player's error
  (`Player.Step`, event `InfoFetchFailed`).

## Model

| member | source | states |
|---|---|---|
| Records.FindById | frontend/src/components/VideoPlayer.tsx:41-45 | `find` by id: none exactly when no record has the id; otherwise the first record that has it |
| Records.ToDict | backend/app/models.py:15-23 | the object has exactly the keys id, original_filename, content_type, file_size, upload_date and status, each holding the row's field; file name, key and IV are not sent |
| Records.FromJson | frontend/src/components/VideoList.tsx:24-31 | an object is read when it carries every field the cards use, with its JSON type. `createdAt` is present exactly when the object has a `created_at` string, and it is that string |
| Records.ClientNeverSeesCreationDate | backend/app/models.py:21-21 | the server sends `upload_date` and no `created_at` key. So every row reaches the client with its other fields intact and no creation date |
| Records.CreationDateReadWhenSent | frontend/src/components/VideoList.tsx:155-155 | an object that did carry `created_at` would have its date read: the absence comes from the key name alone |
| Player.Open | frontend/src/components/VideoPlayer.tsx:22-36 | opening a video gives a valid session that is loading and buffering, with no error, no retries and no pending timer, and its source is the stream URL of that video |
| Player.TearDown | frontend/src/components/VideoPlayer.tsx:53-62 | cleanup unmounts and leaves no retry timer with an effect: the last one is cleared, and earlier ones fire into the unmounted component and change nothing. The element ref is already cleared, so the source, error, counters and record are left as they were |
| Player.HandleError | frontend/src/components/VideoPlayer.tsx:65-101 | a code-2 error below the bound only schedules one retry. Every other case reports "Error playing video: " + the code's text (or "Unknown error occurred") and stops loading and buffering, with no retry scheduled |
| Player.RetryPlayback | frontend/src/components/VideoPlayer.tsx:139-160 | with the element mounted and below the bound: clear the error, count the attempt, switch to the cache-busted URL. Otherwise only the maximum-retries message is set |
| Player.StepPreservesValid | frontend/src/components/VideoPlayer.tsx:139-142 | no event takes the retry count above 3 or leaves a pending retry timer on an unmounted player |
| Player.RunPreservesValid | frontend/src/components/VideoPlayer.tsx:29-30 | over any run of events the retry count stays at most `MAX_RETRIES` |
| Player.OnlyNetworkErrorSchedules | frontend/src/components/VideoPlayer.tsx:71-83 | the pending timers grow exactly on a code-2 error below the bound, and then by exactly one |
| Player.ScheduledRetryIsSilent | frontend/src/components/VideoPlayer.tsx:75-81 | scheduling a retry leaves error, loading, buffering and source untouched |
| Player.RetryAttemptsCounted | frontend/src/components/VideoPlayer.tsx:139-143 | without `canplay`, the retry count grows by exactly the number of retry attempts made |
| Player.RetryBudget | frontend/src/components/VideoPlayer.tsx:139-142 | without `canplay`, a session makes at most `3 - retryCount` further retry attempts |
| Player.RetryAtLimitOnlyReports | frontend/src/components/VideoPlayer.tsx:157-158 | at the bound a retry sets only the maximum-retries message: count, source and indicators are unchanged |
| Player.CacheBusterIsFresh | frontend/src/components/VideoPlayer.tsx:146-151 | two retry URLs are equal exactly when their video ids and timestamps are, and no retry URL is a plain stream URL |
| Player.TornDownIsInert | frontend/src/components/VideoPlayer.tsx:53-62 | after cleanup no event changes the session, and cleanup is idempotent |
| Player.MediaEventEffects | frontend/src/components/VideoPlayer.tsx:103-137 | `canplay`, `loadstart`, `waiting`, `playing` and `loadedmetadata` each change exactly their own fields |
| Player.Overlay | frontend/src/components/VideoPlayer.tsx:208-225 | the overlay is shown exactly while loading or buffering. It says "Loading video..." exactly when loading, and otherwise "Buffering..." |
| Player.OverlayFollowsEvents | frontend/src/components/VideoPlayer.tsx:103-137 | the loading overlay shows on open and on `loadstart`. `canplay` or a reported error removes it, and a scheduled retry leaves it as it was |
| Player.Title | frontend/src/components/VideoPlayer.tsx:177-177 | the title is the record's `original_filename` when there is a record with a non-empty name, and "Video Player" otherwise. It is never empty |
| Player.TitleAfterInfo | frontend/src/components/VideoPlayer.tsx:39-45 | the metadata response titles the player with the first record that has its id. The name is replaced by the default when empty, and the title is unchanged when no record has the id |
| Player.TitleNamesTheVideo | frontend/src/components/VideoPlayer.tsx:39-45 | over any run of events, a player opened for an id holds only a record with that id, and is titled by its name or the default |
| Player.NetworkFailuresExhaustRetries | frontend/src/components/VideoPlayer.tsx:75-83 | four network errors on video 7, each retry firing in between: three retries, then the network error is reported with no fourth retry |
| Player.NetworkFailureRecovers | frontend/src/components/VideoPlayer.tsx:110-116 | one network error on video 42, the retry, then `canplay`: playing from the cache-busted URL, no error, budget reset |
| Upload.HandleFile | frontend/src/components/VideoUpload.tsx:60-71 | no file changes nothing. An allowed type becomes the selection and clears the error. Any other type only sets the invalid-type message and keeps the previous selection |
| Upload.AcceptsExactlyAllowedTypes | frontend/src/components/VideoUpload.tsx:63-70 | a file is accepted if and only if its type is one of the four video MIME types |
| Upload.HandleDrag | frontend/src/components/VideoUpload.tsx:73-81 | enter and over activate the drop zone, leave deactivates it, and nothing else changes |
| Upload.HandleDrop | frontend/src/components/VideoUpload.tsx:83-91 | a drop deactivates the zone and handles the first dropped file, if any |
| Upload.HandleFileSelect | frontend/src/components/VideoUpload.tsx:93-97 | picking handles the first picked file, or does nothing |
| Upload.ProgressPercent | frontend/src/components/VideoUpload.tsx:116-120 | 0 without a positive total. Otherwise the nearest whole percentage of loaded/total, halves rounded up (`Math.round`) |
| Upload.ProgressBounded | frontend/src/components/VideoUpload.tsx:116-120 | with at most the total sent, progress lies in [0, 100], and it is 100 when everything is sent |
| Upload.ProgressMonotone | frontend/src/components/VideoUpload.tsx:117-119 | for a fixed total, sending more never lowers the percentage |
| Upload.ClickUpload | frontend/src/components/VideoUpload.tsx:99-110 | ignored while uploading. Without a selection it only sets "Please select a video file first" and sends nothing. Otherwise it starts uploading the selected file |
| Upload.OnProgress | frontend/src/components/VideoUpload.tsx:116-121 | a progress event sets only the percentage |
| Upload.FailureMessage | frontend/src/components/VideoUpload.tsx:129-130 | the server's non-empty error text, else "Failed to upload video" |
| Upload.Finish | frontend/src/components/VideoUpload.tsx:124-135 | either outcome stops uploading and resets progress to 0. Success clears the selection and signals the parent exactly once. Failure keeps the selection and sets the message |
| Upload.ClearFile | frontend/src/components/VideoUpload.tsx:138-145 | from any state: no selection, no error, progress 0 |
| Upload.TransitionsKeepProgressInRange | frontend/src/components/VideoUpload.tsx:99-145 | every transition keeps the percentage in [0, 100] |
| Upload.UploadScenario | frontend/src/components/VideoUpload.tsx:99-136 | select, upload, progress 0/37/100, success: the form is back to its initial state and signalled the parent |
| Catalog.BeginFetch | frontend/src/components/VideoList.tsx:45-48 | a fetch starts with the spinner on and the error cleared, and the list and dialog untouched |
| Catalog.CompleteFetch | frontend/src/components/VideoList.tsx:49-56 | a response replaces the whole list. A failure keeps the old list and sets "Failed to fetch videos". The spinner stops either way |
| Catalog.Mount | frontend/src/components/VideoList.tsx:38-61 | mounting starts the first fetch with an empty list and a closed dialog |
| Catalog.Rerender | frontend/src/components/VideoList.tsx:59-61 | the fetch effect runs again exactly when the refresh trigger changed |
| Catalog.FetchPerTriggerChange | frontend/src/components/VideoList.tsx:59-61 | over any run of renders, the fetches equal the number of trigger changes |
| Catalog.IncreasingTriggerFetchesEachTime | frontend/src/components/VideoList.tsx:59-61 | a strictly growing trigger changes at every render |
| Catalog.LastArrivalWins | frontend/src/components/VideoList.tsx:45-57 | after any run of arrivals, the list is the last successful response, whatever order the requests were made in |
| Catalog.DeleteClick | frontend/src/components/VideoList.tsx:63-67 | remembers the video and opens the dialog, leaving the list alone |
| Catalog.CancelDelete | frontend/src/components/VideoList.tsx:173-182 | closes the dialog, keeping the remembered video and the list |
| Catalog.ConfirmDelete | frontend/src/components/VideoList.tsx:69-81 | pressing Delete and getting the answer before any other event: a no-op without a remembered video. Otherwise a DELETE for its id. Success closes, forgets and refetches once. Failure sets only "Failed to delete video" and does not refetch |
| Catalog.RequestDelete | frontend/src/components/VideoList.tsx:69-72 | the guard and the id are read when Delete is pressed: no request exactly when no video is remembered, otherwise a request for that video's id |
| Catalog.AnswerDelete | frontend/src/components/VideoList.tsx:72-80 | the answer is applied without looking at the selection again. Success closes the dialog, forgets the video, shows the spinner and clears the error, keeping the list. Failure sets only "Failed to delete video" |
| Catalog.RequestThenAnswerIsConfirm | frontend/src/components/VideoList.tsx:69-81 | a press answered before anything else happens is exactly the one-step confirm, and a request goes out exactly when the confirm sends one |
| Catalog.RequestCountsPresses | frontend/src/components/VideoList.tsx:69-72 | every press with a video remembered sends one more request, even with one unanswered; the press changes nothing else |
| Catalog.DoubleConfirmHidesRefreshedList | frontend/src/components/VideoList.tsx:69-81 | pressing Delete twice before the first answer: the first succeeds and refetches, and the second fails. Once the new list arrives it is held but hidden behind "Failed to delete video", with the dialog closed |
| Catalog.FetchThenRender | frontend/src/components/VideoList.tsx:101-115 | a successful fetch shows exactly the response; a failed one shows only the alert |
| Catalog.Render | frontend/src/components/VideoList.tsx:101-138 | the spinner exactly while loading; otherwise the alert with the error's text exactly when the error is non-empty; otherwise the grid of the current list, with the empty notice exactly for an empty list and the dialog as it stands |
| Catalog.RenderPrecedence | frontend/src/components/VideoList.tsx:101-115 | the grid is shown exactly when not loading and without error, and the spinner exactly while loading |
| Catalog.FailedDeleteScenario | frontend/src/components/VideoList.tsx:77-80 | a failed delete of video 5 keeps the list and the dialog state, makes no refetch, and hides the list behind the alert |
| Catalog.SuccessfulDeleteRefreshes | frontend/src/components/VideoList.tsx:72-76 | a successful delete shows the spinner, then the new list with the dialog closed |
| Catalog.ArrivalsKeepError | frontend/src/components/VideoList.tsx:45-57 | after any run of fetch results, the error is "Failed to fetch videos" if any failed, else unchanged: an arrival never clears it. The dialog is untouched |
| Catalog.RenderAfterArrivals | frontend/src/components/VideoList.tsx:45-115 | once overlapping fetches settle, the alert is shown if any failed or an error was already set; otherwise the grid of the last successful response. One failure hides the list even when a later fetch succeeds |
| Catalog.StepStartsFetch | frontend/src/components/VideoList.tsx:45-81 | only a changed trigger or a successful answer to a pending DELETE turns the spinner on and clears the error; no other event does either |
| Catalog.AlertStaysUntilFetch | frontend/src/components/VideoList.tsx:101-115 | once the alert shows with nothing loading, it stays shown over any run of events that starts no fetch |
| Catalog.FailedDeleteHidesListUntilFetch | frontend/src/components/VideoList.tsx:77-80 | after a failed answer to a DELETE the list stays hidden behind the alert until the next fetch starts |
| Catalog.DialogClosesOnlyByCancelOrDelete | frontend/src/components/VideoList.tsx:69-81 | an open dialog closes exactly on cancel or on a successful answer to a pending DELETE, whatever is selected by then; a failed delete leaves it open |
| Catalog.DialogStaysOpen | frontend/src/components/VideoList.tsx:173-187 | over any run with no cancel and no successful DELETE answer, an open dialog stays open |
| Shell.Step | frontend/src/App.tsx:137-176 | each event changes exactly its own fields. The toggle negates the drawer flag. An upload success adds one to the trigger and shows the list. Select and close set and clear the selected video. Navigation sets the view |
| Shell.TriggerCountsUploads | frontend/src/App.tsx:141-144 | the trigger equals its start plus the number of upload successes, so it never decreases |
| Shell.Render | frontend/src/App.tsx:252-266 | the player shows exactly for a truthy id. Exactly one of list and upload form is shown, chosen by the view, and the list gets the current trigger |
| Shell.UploadSuccessShowsFreshList | frontend/src/App.tsx:141-144 | after an upload success the main area is the list, handed a trigger one greater than before, and the player is unchanged |
| Shell.SelectThenClose | frontend/src/App.tsx:252-257 | selecting then closing leaves no player, and an id of 0 never opens one |
| Shell.RunFollowsLastChoice | frontend/src/App.tsx:141-176 | after any run of events, the selected video is the last selection (none after a later close), and the view is the last navigation or upload success |
| Shell.ScreenAfterRun | frontend/src/App.tsx:252-266 | after any run of events, the player shows the last selection unless it was closed since or is 0. The main area is the list with the trigger counting the upload successes, or the upload form, as last chosen |
| Routes.LastDot | backend/app/routes.py:34-34 | the position of a '.' with no '.' after it, or none exactly when the name has no '.' |
| Routes.AllowedFile | backend/app/routes.py:31-34 | an allowed name ends in a '.' followed by exactly three characters, none of them a '.' |
| Routes.AllowedFileIff | backend/app/routes.py:31-34 | `allowed_file` holds if and only if some '.' with no '.' after it is followed by text whose lower case is mp4, avi, mov or mkv |
| Routes.AllowedFileExamples | backend/app/routes.py:31-34 | "movie.MP4" and ".mov" are allowed: case is ignored and the stem may be empty |
| Routes.LastExtensionCounts | backend/app/routes.py:34-34 | "holiday.2024.mkv" is allowed and "clip.mp4.exe" is refused: only the last extension counts |
| Routes.RefusedFileExamples | backend/app/routes.py:34-34 | "mp4" (no dot) and "clip." (empty extension) are refused |
| Routes.StoredName | backend/app/routes.py:58-58 | the stored name starts with "encrypted_" |
| Routes.StoredNameInjective | backend/app/routes.py:58-58 | two stored names are equal exactly when their seconds and sanitised names are, so they collide only then |
| Routes.UploadVideo | backend/app/routes.py:36-91 | the three 400 checks in order: no field, empty name, extension. Then 500 with the exception's message. Otherwise 201 with a stored row that is ready and named `encrypted_{t}_{name}`. The row has the new id, the upload date, the content type sniffed from the bytes (not the client's claim), the encrypted size and the generated key and IV. It is returned as its JSON with the message "Video uploaded successfully" |
| Routes.UploadStoresOnlyValidFiles | backend/app/routes.py:38-91 | a row is stored if and only if all three checks pass and nothing raises. Statuses are 201, 400 or 500, and 400 exactly when a check fails |
| Routes.StreamStatuses | backend/app/routes.py:112-247 | statuses are 200, 206, 400, 404 or 500, each under its exact condition, and a body exactly with 200 or 206. Unknown id gives 500, not ready 400, missing file 404. A non-empty `Range` gives 206, or 500 when a position has more than 4300 digits. No `Range` gives 200 |
| Routes.StreamMessages | backend/app/routes.py:114-247 | each error status carries its handler's message: the not-found text for an unknown id, the `int()` limit error for an over-long range. A reply with a body carries the stored content type |
| Routes.FullReplyHeaders | backend/app/routes.py:225-243 | without a (non-empty) `Range` header: 200, the file size as `Content-Length`, no `Content-Range`, the whole file as body |
| Routes.RangeReplyHeaders | backend/app/routes.py:134-197 | for `bytes=a-b`: 206, `Content-Range: bytes a-b/size`, `Content-Length` b-a+1 (even when negative or past the file), body from a. If a, or else b, has more than 4300 digits, the reply is 500 with the limit error naming that digit count |
| Routes.OverlongRangeIsServerError | backend/app/routes.py:137-141 | `bytes=` followed by more than 4300 digits and '-' is answered with 500 and the limit error, whatever the digits' value |
| Routes.OpenRangeReplyHeaders | backend/app/routes.py:134-197 | for `bytes=a-`: 206 with end size-1 and `Content-Length` size-a, or 500 with the limit error when a has more than 4300 digits |
| RangeHeader.DigitSpan | backend/app/routes.py:137-137 | the length of the maximal digit run at a position |
| RangeHeader.MatchesAtIsRegexMatch | backend/app/routes.py:137-137 | the computed greedy match holds exactly where the regular expression, read literally, matches, and its first group is the whole digit run |
| RangeHeader.Search | backend/app/routes.py:137-138 | `re.search`: the leftmost matching position, or none exactly when no position matches |
| RangeHeader.Parse | backend/app/routes.py:136-143 | a header that matches nowhere leaves the defaults, start 0 and no end. A conversion failure only ever names a group of more than 4300 digits |
| RangeHeader.ReadGroups | backend/app/routes.py:139-143 | `int()` of the start, then of a non-empty end: it fails exactly when a group has more than 4300 digits, naming the start's count first. Otherwise it gives the groups' values, with an end exactly when the second group is non-empty |
| RangeHeader.ParseWellFormed | backend/app/routes.py:136-143 | `bytes=a-b` parses back to a and b, and `bytes=a-` to a with no end. If a, or else b, has more than 4300 digits, it is refused with that digit count |
| RangeHeader.ParseWithTrailing | backend/app/routes.py:137-143 | `bytes=a-b` or `bytes=a-` followed by any text not starting with a digit reads as it would alone: a and b, or the same over-long group refused |
| RangeHeader.OverlongStartRefused | backend/app/routes.py:137-141 | a start group of more than 4300 digits is refused by its length, even when it is all zeros |
| RangeHeader.MultiRangeUsesFirst | backend/app/routes.py:137-143 | the multi-range header `bytes=0-499,1000-` is read as its first range, 0 to 499 |
| RangeHeader.Resolve | backend/app/routes.py:145-148 | a missing end is size-1, and the length counts both ends |
| RangeHeader.SuffixRangeServesWholeFile | backend/app/routes.py:136-148 | `bytes=-n` does not match, so bytes 0 to size-1, length size |
| RangeHeader.NoBoundsCheck | backend/app/routes.py:145-148 | `bytes=10-5` declares length -4, and an end at the file size is passed through whenever the size is within the digit limit |
| RangeHeader.EmptyFileOpenRange | backend/app/routes.py:145-148 | for an empty file `bytes=a-` gives end -1 and length -a, for every a within the digit limit |
| RangeHeader.InBoundsLength | backend/app/routes.py:148-148 | a range inside the file has a positive length that fits in the rest of the file |
| Streaming.Read | backend/app/routes.py:157-158 | a read gives at most the asked size and is non-empty exactly when before the end. It is the file's bytes from the position |
| Streaming.Emitted | backend/app/routes.py:168-169 | only non-empty plaintext is sent, as one piece |
| Streaming.DeclaredLengthVsServed | backend/app/routes.py:148-182 | the declared length equals the bytes read exactly for a range inside the file; past the end fewer are read than declared |
| Streaming.GenerateRange | backend/app/routes.py:151-176 | reads are at most one chunk and at most the declared length in total. Unless stopped they are exactly the range's bytes up to the end of the file. It stops, having sent nothing, exactly when there is something to read and the cipher cannot be set up for chunk number `byte1 // chunk_size`. What is sent is the non-empty decryption of each read. An unaligned single-chunk range sends nothing |
| Streaming.RangeInvStep | backend/app/routes.py:156-173 | one read keeps the range loop's accounting of position, bytes still wanted and bytes read |
| Streaming.GenerateFull | backend/app/routes.py:199-223 | reads are whole chunks except a short last one, and a prefix of the file. Unless stopped they are the whole file. It stops only when the cipher cannot be set up for the next chunk number, which after one chunk means 2^128 chunks. Chunk i is decrypted under number i |
| Streaming.FullInvStep | backend/app/routes.py:204-220 | one read keeps the reads a chunk-aligned prefix of the file |
| Streaming.YieldedAtMostOnePerRead | backend/app/routes.py:168-169 | at most one piece is sent per chunk read |
| Streaming.YieldedFromReads | backend/app/routes.py:162-169 | every piece sent is non-empty and is the plaintext of some chunk read, decrypted under that chunk's number |
| Streaming.UnalignedChunkSendsNothing | backend/app/routes.py:161-169 | a chunk whose length is not a multiple of 16 sends nothing |
| Encryption.GenerateKey | backend/app/encryption.py:8-12 | a 32-byte key followed by a 16-byte IV, drawn in order from the random source |
| Encryption.PadLength | backend/app/encryption.py:30-32 | fewer than 16 spaces, reaching a multiple of 16, and none exactly for an aligned length |
| Encryption.PadChunk | backend/app/encryption.py:30-32 | the padded chunk keeps the original as prefix, adds only spaces, fewer than 16 of them, to a multiple of 16; an aligned chunk is unchanged |
| Encryption.PadIsMinimalAndIdempotent | backend/app/encryption.py:30-32 | padding reaches the least fitting multiple of 16, and padding twice changes nothing |
| Encryption.EncryptStream | backend/app/encryption.py:23-35 | every piece handed to the cipher is non-empty, block-aligned and at most 64 KiB, and together they are the file followed by the padding of its last partial block |
| Encryption.EncryptStep | backend/app/encryption.py:26-35 | one read of the encryption loop keeps the cipher input equal to the bytes read plus the padding |
| Encryption.ToBytesBE | backend/app/encryption.py:44-44 | `to_bytes(len, 'big')` gives exactly `len` bytes when it succeeds |
| Encryption.ToBytesRoundTrip | backend/app/encryption.py:44-44 | `to_bytes` succeeds exactly below 256^len, and its bytes read back as the number |
| Encryption.XorZip | backend/app/encryption.py:44-44 | byte-wise XOR truncated to the shorter input, as `zip` does |
| Encryption.DeriveIv | backend/app/encryption.py:43-44 | the chunk IV exists exactly for chunk numbers below 2^128, and has the base IV's length up to 16 |
| Encryption.DeriveIvZero | backend/app/encryption.py:44-44 | chunk 0 uses the base IV unchanged |
| Encryption.DeriveIvInvertible | backend/app/encryption.py:44-44 | deriving twice with the same number gives the base IV back, and distinct numbers give distinct IVs |
| Encryption.DecryptChunk | backend/app/encryption.py:37-52 | raises exactly when the number overflows, the IV is short or the key length is wrong. Otherwise it is `None` exactly for an unaligned chunk, and else the primitive's output under the derived IV, with no padding stripped |
| Encryption.GeneratedKeyDecrypts | backend/app/encryption.py:38-49 | with freshly generated key material and a number below 2^128, decryption never raises, and it gives plaintext exactly for aligned chunks |

## Left out

- The Kafka producer and consumer, and the server-sent events endpoint `stream_events`, are network I/O and long-running consumers.
- These appear only as inputs:
  - Flask request handling, SQLAlchemy and the filesystem: a row, file existence, file size and exception messages are given;
  - libmagic MIME sniffing and werkzeug `secure_filename`: their results are given;
  - the clock;
  - `delete_video` and the listing endpoint: the client sees only their success or failure.
- Base64 encoding of key and IV is not modelled: the server-side model works on the decoded bytes.
- The AES-CBC primitive is a function parameter, and random generation is an entropy parameter. No encrypt/decrypt round trip is stated, because the code does not satisfy one:
  - encryption chains CBC across 64 KiB reads with one cipher;
  - streaming decrypts 1 MiB reads with XOR-derived IVs;
  - the range path uses one chunk number for every read.
- A read error inside a body generator (the `except` around `open`/`read`) is not modelled: the file is a byte sequence that reads without failure.
- `formatFileSize` and `formatDate` use floating-point logarithms and locale formatting, and are not modelled.
- React rendering, MUI styling, the theme, dialog layout and the `axios` transport are left out. Requests are given success or failure results.
- The 1000 ms retry delay is not timed: a scheduled retry is a pending-timer count that a `RetryTimerFired` event consumes.
- React batching and the stale `retryCount` captured by the timer closure are framework semantics and are not modelled.
- The text of werkzeug's `NotFound` error is a constant (`Routes.NotFoundText`): werkzeug is not part of this model.
- Common.Lower: folds only the ASCII letters A-Z, whereas Python's `str.lower` also lowers non-ASCII letters; a name whose extension contains such letters is outside the model.
- Routes.UploadVideo: an exception is taken to happen before the row is committed. An exception from removing the temporary file after the commit would leave a stored row behind a 500 reply, and that is not modelled.
- Player.TearDown: the source clears only the last scheduled retry timer. Earlier timers still fire after unmount, but they find no element, and their state update on the unmounted component is dropped. The model therefore sets the pending count to 0 instead of tracking timers that can no longer change anything. The cleanup's pause, source reset and reload are skipped because React clears the element ref before it runs the cleanup, so the model leaves the source as it was. Releasing the media element is left to the browser.
- A change of video id under a mounted player is not modelled: the effect would then clean up and reset the session for the new id. The player is a modal dialog, so another card cannot be selected while it is open, and every session starts from `Player.Open`.
- Records.FromJson: an object lacking a field the cards read gives `None`, where JavaScript would give a record with undefined fields. The server always sends those fields.
- Player.Step: it has no contract of its own. Its effects are stated by `Player.StepPreservesValid`, `Player.OnlyNetworkErrorSchedules`, `Player.MediaEventEffects` and `Player.TornDownIsInert`.
- Routes.IntLimitMessage: the error text is CPython 3.12's. Earlier releases that have the limit word it slightly differently, and a Python built without the limit, or run with `sys.set_int_max_str_digits(0)`, accepts any length. The model follows the default limit.
- Routes.StreamVideo: it has no contract of its own. Its replies are stated by `Routes.StreamStatuses`, `Routes.StreamMessages`, `Routes.FullReplyHeaders`, `Routes.RangeReplyHeaders`, `Routes.OpenRangeReplyHeaders` and `Routes.OverlongRangeIsServerError`.

=== FILE: catalog.dfy ===
/** The video list: fetching the catalog when mounted and whenever the
    refresh trigger changes, the delete-confirm dialog, and which of spinner,
    error alert or grid is shown. */
module Catalog {
  import opened Common
  import Records

  const FetchFailedMessage: string := "Failed to fetch videos"
  const DeleteFailedMessage: string := "Failed to delete video"

  datatype CatalogState = CatalogState(
    videos: seq<Records.ClientVideo>,
    loading: bool,
    error: Option<string>,
    dialogOpen: bool,
    selected: Option<Records.ClientVideo>,
    /** the refresh trigger the fetch effect last ran for */
    trigger: int,
    /** DELETE requests sent and not yet answered */
    deletesInFlight: nat)

  datatype FetchResult = Fetched(videos: seq<Records.ClientVideo>) | FetchFailed

  datatype DeleteResult = Deleted | DeleteFailed

  /** What confirming a delete did: the new state, the id sent in the DELETE
      request if one was sent, and whether the list was fetched again. */
  datatype DeleteEffect = DeleteEffect(state: CatalogState, request: Option<int>, refetched: bool)

  datatype View =
    | Spinner
    | ErrorAlert(message: string)
    /** the cards, the "No videos uploaded yet" notice when empty, and the dialog */
    | Grid(videos: seq<Records.ClientVideo>, emptyNotice: bool, dialogOpen: bool)

  /** The synchronous start of `fetchVideos`: show the spinner and clear the error. */
  function BeginFetch(s: CatalogState): (t: CatalogState)
    ensures t.loading && t.error.None?
    ensures t.videos == s.videos && t.dialogOpen == s.dialogOpen && t.selected == s.selected
  {
    s.(loading := true, error := None)
  }

  /** A fetch settles: a response replaces the whole list, a failure keeps the
      old list and reports; the spinner stops either way. */
  function CompleteFetch(s: CatalogState, r: FetchResult): (t: CatalogState)
    ensures !t.loading
    ensures r.Fetched? ==> t.videos == r.videos && t.error == s.error
    ensures r.FetchFailed? ==> t.videos == s.videos && t.error == Some(FetchFailedMessage)
    ensures t.dialogOpen == s.dialogOpen && t.selected == s.selected && t.trigger == s.trigger
  {
    match r
    case Fetched(vs) => s.(videos := vs, loading := false)
    case FetchFailed => s.(error := Some(FetchFailedMessage), loading := false)
  }

  /** Mounting the list with refresh trigger `trigger`: initial state, and the
      fetch effect runs once. */
  function Mount(trigger: int): (s: CatalogState)
    ensures s.videos == [] && s.loading && s.error.None?
    ensures !s.dialogOpen && s.selected.None? && s.trigger == trigger
  {
    BeginFetch(CatalogState([], true, None, false, None, trigger, 0))
  }

  /** A re-render with refresh trigger `trigger`: the fetch effect runs again
      exactly when the trigger differs from the one it last ran for. The second
      component tells whether a fetch was started. */
  function Rerender(s: CatalogState, trigger: int): (r: (CatalogState, bool))
    ensures r.1 <==> trigger != s.trigger
    ensures r.0.trigger == trigger
    ensures r.1 ==> r.0 == BeginFetch(s).(trigger := trigger)
    ensures !r.1 ==> r.0 == s
  {
    if trigger != s.trigger then (BeginFetch(s).(trigger := trigger), true) else (s, false)
  }

  /** Fetches started by re-rendering with each trigger of `triggers` in turn. */
  function FetchesOver(s: CatalogState, triggers: seq<int>): nat
    decreases |triggers|
  {
    if |triggers| == 0 then 0
    else
      var (t, fetched) := Rerender(s, triggers[0]);
      (if fetched then 1 else 0) + FetchesOver(t, triggers[1..])
  }

  /** Number of positions where a sequence of values differs from the value before it. */
  function Changes(prev: int, values: seq<int>): nat
    decreases |values|
  {
    if |values| == 0 then 0
    else (if values[0] != prev then 1 else 0) + Changes(values[0], values[1..])
  }

  /** One fetch per change of the refresh trigger, and none otherwise. */
  lemma {:induction false} FetchPerTriggerChange(s: CatalogState, triggers: seq<int>)
    ensures FetchesOver(s, triggers) == Changes(s.trigger, triggers)
    decreases |triggers|
  {
    if |triggers| > 0 {
      FetchPerTriggerChange(Rerender(s, triggers[0]).0, triggers[1..]);
    }
  }

  /** A trigger that only grows, one step per render, causes one fetch per render. */
  lemma {:induction false} IncreasingTriggerFetchesEachTime(prev: int, values: seq<int>)
    requires |values| > 0 ==> values[0] > prev
    requires forall i :: 0 < i < |values| ==> values[i] > values[i - 1]
    ensures Changes(prev, values) == |values|
    decreases |values|
  {
    if |values| > 0 {
      var rest := values[1..];
      forall i | 0 < i < |rest| ensures rest[i] > rest[i - 1] {
        assert rest[i] == values[i + 1] && rest[i - 1] == values[i];
      }
      if |rest| > 0 {
        assert rest[0] == values[1];
      }
      IncreasingTriggerFetchesEachTime(values[0], rest);
    }
  }

  /** Applying fetch results in the order they arrive. */
  function ApplyResults(s: CatalogState, results: seq<FetchResult>): CatalogState
    decreases |results|
  {
    if |results| == 0 then s else ApplyResults(CompleteFetch(s, results[0]), results[1..])
  }

  /** The list held after a run of arrivals: the last successful response, if any. */
  function LastFetched(current: seq<Records.ClientVideo>, results: seq<FetchResult>): seq<Records.ClientVideo>
    decreases |results|
  {
    if |results| == 0 then current
    else if results[|results| - 1].Fetched? then results[|results| - 1].videos
    else LastFetched(current, results[..|results| - 1])
  }

  /** Overlapping fetches are not coalesced: whichever response arrives last
      wins, whatever order the requests were made in. */
  lemma {:induction false} LastArrivalWins(s: CatalogState, results: seq<FetchResult>)
    ensures ApplyResults(s, results).videos == LastFetched(s.videos, results)
    ensures |results| > 0 ==> !ApplyResults(s, results).loading
    decreases |results|
  {
    if |results| > 0 {
      var t := CompleteFetch(s, results[0]);
      LastArrivalWins(t, results[1..]);
      LastFetchedShift(s.videos, results);
    }
  }

  lemma {:induction false} LastFetchedShift(current: seq<Records.ClientVideo>, results: seq<FetchResult>)
    requires |results| > 0
    ensures LastFetched(CompleteFetchList(current, results[0]), results[1..]) == LastFetched(current, results)
    decreases |results|
  {
    if |results| > 1 {
      var rest := results[1..];
      assert rest[..|rest| - 1] == results[1..|results| - 1];
      if !results[|results| - 1].Fetched? {
        LastFetchedShift(current, results[..|results| - 1]);
        assert results[..|results| - 1][1..] == results[1..|results| - 1];
      }
    }
  }

  function CompleteFetchList(current: seq<Records.ClientVideo>, r: FetchResult): seq<Records.ClientVideo> {
    if r.Fetched? then r.videos else current
  }

  /** The delete button on a card: remember the video and open the dialog. */
  function DeleteClick(s: CatalogState, v: Records.ClientVideo): (t: CatalogState)
    ensures t.selected == Some(v) && t.dialogOpen
    ensures t.videos == s.videos && t.error == s.error && t.loading == s.loading
  {
    s.(selected := Some(v), dialogOpen := true)
  }

  /** Cancel, or closing the dialog: it closes, the remembered video stays. */
  function CancelDelete(s: CatalogState): (t: CatalogState)
    ensures !t.dialogOpen && t.selected == s.selected && t.videos == s.videos
  {
    s.(dialogOpen := false)
  }

  /** The synchronous part of `handleDeleteConfirm`: the guard is checked and the
      id read when the Delete button is pressed. The id the DELETE request is
      sent for, or none without a remembered video. */
  function RequestDelete(s: CatalogState): (id: Option<int>)
    ensures id.None? <==> s.selected.None?
    ensures id.Some? ==> id.value == s.selected.value.id
  {
    if s.selected.None? then None else Some(s.selected.value.id)
  }

  /** The rest of `handleDeleteConfirm`, once the DELETE request is answered: on
      success close, forget and refetch, on failure only report. The selection
      is not looked at again. */
  function AnswerDelete(s: CatalogState, r: DeleteResult): (t: CatalogState)
    ensures r.Deleted? ==>
      && !t.dialogOpen && t.selected.None? && t.loading && t.error.None?
      && t.videos == s.videos && t.trigger == s.trigger && t.deletesInFlight == s.deletesInFlight
    ensures r.DeleteFailed? ==> t == s.(error := Some(DeleteFailedMessage))
  {
    match r
    case Deleted => BeginFetch(s.(dialogOpen := false, selected := None))
    case DeleteFailed => s.(error := Some(DeleteFailedMessage))
  }

  /** `handleDeleteConfirm` answered before anything else happens: nothing
      without a remembered video; otherwise the DELETE request for its id, and
      on success close, forget and refetch, on failure only report. */
  function ConfirmDelete(s: CatalogState, r: DeleteResult): (e: DeleteEffect)
    ensures s.selected.None? ==> e == DeleteEffect(s, None, false)
    ensures s.selected.Some? ==> e.request == Some(s.selected.value.id)
    ensures s.selected.Some? && r.Deleted? ==>
      && e.refetched && !e.state.dialogOpen && e.state.selected.None?
      && e.state.loading && e.state.error.None? && e.state.videos == s.videos
    ensures s.selected.Some? && r.DeleteFailed? ==>
      && !e.refetched
      && e.state == s.(error := Some(DeleteFailedMessage))
  {
    var id := RequestDelete(s);
    if id.None? then DeleteEffect(s, None, false)
    else DeleteEffect(AnswerDelete(s, r), id, r.Deleted?)
  }

  /** What the list shows: the spinner while loading, else the alert alone
      while there is an error, else the grid. */
  function Render(s: CatalogState): (v: View)
    ensures v.Spinner? <==> s.loading
    ensures v.ErrorAlert? <==> !s.loading && Truthy(s.error)
    ensures v.ErrorAlert? ==> s.error == Some(v.message)
    ensures v.Grid? ==> v.videos == s.videos && (v.emptyNotice <==> |s.videos| == 0) && v.dialogOpen == s.dialogOpen
  {
    if s.loading then Spinner
    else if Truthy(s.error) then ErrorAlert(s.error.value)
    else Grid(s.videos, |s.videos| == 0, s.dialogOpen)
  }

  /** A successful fetch shows exactly the response; a failed one shows only the alert. */
  lemma FetchThenRender(s: CatalogState, r: FetchResult)
    ensures r.Fetched? ==>
      Render(CompleteFetch(BeginFetch(s), r)) == Grid(r.videos, |r.videos| == 0, s.dialogOpen)
    ensures r.FetchFailed? ==>
      Render(CompleteFetch(BeginFetch(s), r)) == ErrorAlert(FetchFailedMessage)
  {
  }

  /** The list is visible exactly when nothing is loading and there is no error. */
  lemma RenderPrecedence(s: CatalogState)
    ensures Render(s).Grid? <==> !s.loading && !Truthy(s.error)
    ensures Render(s).Spinner? <==> s.loading
    ensures Render(s).Grid? ==> Render(s).videos == s.videos
  {
  }

  /** Deleting video 5 fails with a server error: the list is kept, the
      failure is the only thing shown, and no refetch happens. */
  lemma FailedDeleteScenario(s: CatalogState, v: Records.ClientVideo)
    requires v.id == 5 && !s.loading
    ensures var e := ConfirmDelete(DeleteClick(s, v), DeleteFailed);
      && e.request == Some(5) && !e.refetched
      && e.state.videos == s.videos && e.state.dialogOpen && e.state.selected == Some(v)
      && Render(e.state) == ErrorAlert(DeleteFailedMessage)
  {
  }

  /** A successful delete followed by the refetch shows the new list with the dialog closed. */
  lemma SuccessfulDeleteRefreshes(s: CatalogState, v: Records.ClientVideo, after: seq<Records.ClientVideo>)
    ensures var e := ConfirmDelete(DeleteClick(s, v), Deleted);
      && e.refetched && e.request == Some(v.id)
      && Render(e.state) == Spinner
      && Render(CompleteFetch(e.state, Fetched(after))) == Grid(after, |after| == 0, false)
  {
  }

  // ---------------------------------------------------------------------------
  // Runs of events
  // ---------------------------------------------------------------------------

  /** A failure among a run of fetch results. */
  predicate AnyFailed(results: seq<FetchResult>) {
    exists i :: 0 <= i < |results| && results[i].FetchFailed?
  }

  /** Arrivals never clear an error: after a run of them the error is the
      fetch-failure message if any of them failed, else what it was; the
      dialog is untouched. */
  lemma {:induction false} ArrivalsKeepError(s: CatalogState, results: seq<FetchResult>)
    ensures ApplyResults(s, results).error == (if AnyFailed(results) then Some(FetchFailedMessage) else s.error)
    ensures ApplyResults(s, results).dialogOpen == s.dialogOpen
    decreases |results|
  {
    if |results| > 0 {
      var rest := results[1..];
      ArrivalsKeepError(CompleteFetch(s, results[0]), rest);
      if AnyFailed(rest) {
        var i :| 0 <= i < |rest| && rest[i].FetchFailed?;
        assert results[i + 1] == rest[i];
      }
      if AnyFailed(results) && !results[0].FetchFailed? {
        var i :| 0 <= i < |results| && results[i].FetchFailed?;
        assert rest[i - 1] == results[i];
      }
    }
  }

  /** What the list shows once a run of overlapping fetches has settled: the
      alert if any of them failed or an error was already shown, otherwise the
      grid of the last successful response. One failure hides the list even
      when a later fetch succeeds. */
  lemma RenderAfterArrivals(s: CatalogState, results: seq<FetchResult>)
    requires |results| > 0
    ensures var t := ApplyResults(s, results);
      Render(t) == (if AnyFailed(results) then ErrorAlert(FetchFailedMessage)
                    else if Truthy(s.error) then ErrorAlert(s.error.value)
                    else Grid(LastFetched(s.videos, results), |LastFetched(s.videos, results)| == 0, s.dialogOpen))
  {
    LastArrivalWins(s, results);
    ArrivalsKeepError(s, results);
  }

  /** What happens to the list, one event at a time. Pressing Delete in the
      dialog and the answer to its request are separate events, since the
      button stays enabled while a request is out. */
  datatype Event =
    | Rendered(trigger: int)
    | Arrived(result: FetchResult)
    | DeleteClicked(video: Records.ClientVideo)
    | DeleteCancelled
    /** the dialog's Delete button is pressed */
    | DeleteRequested
    /** the oldest unanswered DELETE request is answered */
    | DeleteAnswered(outcome: DeleteResult)

  function Step(s: CatalogState, e: Event): CatalogState {
    match e
    case Rendered(t) => Rerender(s, t).0
    case Arrived(r) => CompleteFetch(s, r)
    case DeleteClicked(v) => DeleteClick(s, v)
    case DeleteCancelled => CancelDelete(s)
    case DeleteRequested =>
      if RequestDelete(s).Some? then s.(deletesInFlight := s.deletesInFlight + 1) else s
    case DeleteAnswered(r) =>
      if s.deletesInFlight == 0 then s
      else AnswerDelete(s.(deletesInFlight := s.deletesInFlight - 1), r)
  }

  function Run(s: CatalogState, events: seq<Event>): CatalogState
    decreases |events|
  {
    if |events| == 0 then s else Run(Step(s, events[0]), events[1..])
  }

  /** Whether delivering `e` starts a fetch: a new refresh trigger, or a
      successful answer to a DELETE request. */
  predicate StartsFetch(s: CatalogState, e: Event) {
    || (e.Rendered? && e.trigger != s.trigger)
    || (e.DeleteAnswered? && e.outcome.Deleted? && s.deletesInFlight > 0)
  }

  /** Fetches started over a run of events. */
  function FetchesStarted(s: CatalogState, events: seq<Event>): nat
    decreases |events|
  {
    if |events| == 0 then 0
    else (if StartsFetch(s, events[0]) then 1 else 0) + FetchesStarted(Step(s, events[0]), events[1..])
  }

  /** Only a fetch start turns the spinner on or clears an error. */
  lemma StepStartsFetch(s: CatalogState, e: Event)
    ensures StartsFetch(s, e) ==> Step(s, e).loading && Step(s, e).error.None?
    ensures !StartsFetch(s, e) ==> (Step(s, e).loading ==> s.loading)
    ensures !StartsFetch(s, e) && Truthy(s.error) ==> Truthy(Step(s, e).error)
  {
  }

  /** Once an alert is shown and nothing is loading, it stays shown until a
      fetch starts, whatever else happens. */
  lemma {:induction false} AlertStaysUntilFetch(s: CatalogState, events: seq<Event>)
    requires !s.loading && Truthy(s.error)
    requires FetchesStarted(s, events) == 0
    ensures !Run(s, events).loading && Truthy(Run(s, events).error)
    ensures Render(Run(s, events)).ErrorAlert?
    decreases |events|
  {
    if |events| > 0 {
      StepStartsFetch(s, events[0]);
      AlertStaysUntilFetch(Step(s, events[0]), events[1..]);
    }
  }

  /** After a failed delete the list stays hidden behind the alert until the
      next fetch starts. */
  lemma FailedDeleteHidesListUntilFetch(s: CatalogState, events: seq<Event>)
    requires !s.loading && s.deletesInFlight > 0
    requires FetchesStarted(Step(s, DeleteAnswered(DeleteFailed)), events) == 0
    ensures Render(Run(Step(s, DeleteAnswered(DeleteFailed)), events)).ErrorAlert?
  {
    AlertStaysUntilFetch(Step(s, DeleteAnswered(DeleteFailed)), events);
  }

  /** The open dialog closes exactly on cancel, or on a successful answer to a
      DELETE request, whatever is selected by then; a failed delete leaves it open. */
  lemma DialogClosesOnlyByCancelOrDelete(s: CatalogState, e: Event)
    requires s.dialogOpen
    ensures !Step(s, e).dialogOpen <==>
      e.DeleteCancelled? || (e.DeleteAnswered? && e.outcome.Deleted? && s.deletesInFlight > 0)
  {
  }

  /** Over a run with no cancel and no successful answer, an open dialog stays open. */
  lemma {:induction false} DialogStaysOpen(s: CatalogState, events: seq<Event>)
    requires s.dialogOpen
    requires forall i :: 0 <= i < |events| ==>
      !events[i].DeleteCancelled? && !(events[i].DeleteAnswered? && events[i].outcome.Deleted?)
    ensures Run(s, events).dialogOpen
    decreases |events|
  {
    if |events| > 0 {
      DialogClosesOnlyByCancelOrDelete(s, events[0]);
      assert forall i :: 0 <= i < |events| - 1 ==> events[1..][i] == events[i + 1];
      DialogStaysOpen(Step(s, events[0]), events[1..]);
    }
  }

  /** Pressing Delete and getting the answer before anything else happens is
      the one-step confirm; the request goes out only for a remembered video. */
  lemma RequestThenAnswerIsConfirm(s: CatalogState, r: DeleteResult)
    requires s.deletesInFlight == 0
    ensures Run(s, [DeleteRequested, DeleteAnswered(r)]) == ConfirmDelete(s, r).state
    ensures (Step(s, DeleteRequested).deletesInFlight > 0) <==> ConfirmDelete(s, r).request.Some?
  {
    var t := Step(s, DeleteRequested);
    assert Run(s, [DeleteRequested, DeleteAnswered(r)]) == Run(t, [DeleteAnswered(r)]);
    assert Run(t, [DeleteAnswered(r)]) == Step(t, DeleteAnswered(r));
  }

  /** Each press of Delete with a video remembered sends one request, even while
      an earlier one is unanswered; the press changes nothing else. */
  lemma RequestCountsPresses(s: CatalogState)
    ensures s.selected.Some? ==> Step(s, DeleteRequested) == s.(deletesInFlight := s.deletesInFlight + 1)
    ensures s.selected.None? ==> Step(s, DeleteRequested) == s
  {
  }

  /** Pressing Delete twice before the first answer: the first request succeeds
      and refetches; the second, for a video that is already gone, fails, and
      its message hides the refreshed list once it arrives. */
  lemma DoubleConfirmHidesRefreshedList(s: CatalogState, v: Records.ClientVideo, after: seq<Records.ClientVideo>)
    requires s.deletesInFlight == 0
    ensures var t := Run(s, [DeleteClicked(v), DeleteRequested, DeleteRequested,
                             DeleteAnswered(Deleted), DeleteAnswered(DeleteFailed), Arrived(Fetched(after))]);
      && t.videos == after && !t.dialogOpen && t.selected.None? && t.deletesInFlight == 0
      && Render(t) == ErrorAlert(DeleteFailedMessage)
  {
    var s1 := Step(s, DeleteClicked(v));
    var s2 := Step(s1, DeleteRequested);
    var s3 := Step(s2, DeleteRequested);
    var s4 := Step(s3, DeleteAnswered(Deleted));
    var s5 := Step(s4, DeleteAnswered(DeleteFailed));
    var s6 := Step(s5, Arrived(Fetched(after)));
    assert s3.deletesInFlight == 2;
    assert s5.error == Some(DeleteFailedMessage) && s5.loading;
    RunSix(s, DeleteClicked(v), DeleteRequested, DeleteRequested,
           DeleteAnswered(Deleted), DeleteAnswered(DeleteFailed), Arrived(Fetched(after)));
  }

  lemma RunSix(s: CatalogState, e1: Event, e2: Event, e3: Event, e4: Event, e5: Event, e6: Event)
    ensures Run(s, [e1, e2, e3, e4, e5, e6])
         == Step(Step(Step(Step(Step(Step(s, e1), e2), e3), e4), e5), e6)
  {
    var s1 := Step(s, e1);
    var s2 := Step(s1, e2);
    var s3 := Step(s2, e3);
    var s4 := Step(s3, e4);
    var s5 := Step(s4, e5);
    assert [e1, e2, e3, e4, e5, e6][1..] == [e2, e3, e4, e5, e6];
    assert [e2, e3, e4, e5, e6][1..] == [e3, e4, e5, e6];
    assert [e3, e4, e5, e6][1..] == [e4, e5, e6];
    assert [e4, e5, e6][1..] == [e5, e6];
    assert [e5, e6][1..] == [e6];
    assert Run(s5, [e6]) == Run(Step(s5, e6), []);
    assert Run(s4, [e5, e6]) == Run(s5, [e6]);
    assert Run(s3, [e4, e5, e6]) == Run(s4, [e5, e6]);
    assert Run(s2, [e3, e4, e5, e6]) == Run(s3, [e4, e5, e6]);
    assert Run(s1, [e2, e3, e4, e5, e6]) == Run(s2, [e3, e4, e5, e6]);
  }
}

=== FILE: common.dfy ===
/** Shared vocabulary of the model: optional values, bytes, decimal text of
    integers (JavaScript `String(n)` / Python `str(n)` / `int(s)`), ASCII case
    folding and flattening of chunk lists. */
module Common {

  /** A value that may be absent: `null`/`undefined` in TypeScript, `None` in Python. */
  datatype Option<+T> = None | Some(value: T)

  type byte = bv8

  /** Truthiness of an optional string in JavaScript and Python: present and non-empty. */
  predicate Truthy(s: Option<string>) {
    s.Some? && s.value != ""
  }

  // ---------------------------------------------------------------------------
  // Decimal digits
  // ---------------------------------------------------------------------------

  predicate IsDigit(c: char) {
    '0' <= c <= '9'
  }

  predicate AllDigits(s: string) {
    forall i :: 0 <= i < |s| ==> IsDigit(s[i])
  }

  function DigitValue(c: char): (d: nat)
    requires IsDigit(c)
    ensures d < 10
  {
    (c as int) - ('0' as int)
  }

  function DigitChar(d: nat): (c: char)
    requires d < 10
    ensures IsDigit(c) && DigitValue(c) == d
  {
    (('0' as int) + d) as char
  }

  /** Decimal text of a natural number, without leading zeros. */
  function ShowNat(n: nat): (s: string)
    ensures |s| > 0 && AllDigits(s)
    ensures |s| > 1 ==> s[0] != '0'
    decreases n
  {
    if n < 10 then [DigitChar(n)] else ShowNat(n / 10) + [DigitChar(n % 10)]
  }

  /** Value of a run of decimal digits; leading zeros are allowed, as with Python `int`. */
  function ParseNat(s: string): nat
    requires AllDigits(s)
    decreases |s|
  {
    if |s| == 0 then 0 else 10 * ParseNat(s[..|s| - 1]) + DigitValue(s[|s| - 1])
  }

  /** Parsing the decimal text of `n` gives `n` back. */
  lemma {:induction false} ParseShowNat(n: nat)
    ensures ParseNat(ShowNat(n)) == n
    decreases n
  {
    if n >= 10 {
      var s := ShowNat(n);
      assert s[..|s| - 1] == ShowNat(n / 10);
      ParseShowNat(n / 10);
    }
  }

  lemma ShowNatInjective(a: nat, b: nat)
    ensures ShowNat(a) == ShowNat(b) <==> a == b
  {
    ParseShowNat(a);
    ParseShowNat(b);
  }

  /** Decimal text of an integer, with a leading '-' when it is negative. */
  function ShowInt(i: int): (s: string)
    ensures |s| > 0
    ensures i >= 0 ==> s == ShowNat(i)
    ensures i < 0 ==> s[0] == '-' && s[1..] == ShowNat(-i)
  {
    if i < 0 then "-" + ShowNat(-i) else ShowNat(i)
  }

  lemma ShowIntInjective(a: int, b: int)
    ensures ShowInt(a) == ShowInt(b) <==> a == b
  {
    if a < 0 && b < 0 {
      ShowNatInjective(-a, -b);
    } else if a >= 0 && b >= 0 {
      ShowNatInjective(a, b);
    }
  }

  // ---------------------------------------------------------------------------
  // ASCII case folding (Python `str.lower` restricted to ASCII letters)
  // ---------------------------------------------------------------------------

  function LowerChar(c: char): char {
    if 'A' <= c <= 'Z' then ((c as int) - ('A' as int) + ('a' as int)) as char else c
  }

  function Lower(s: string): (r: string)
    ensures |r| == |s|
    ensures forall i :: 0 <= i < |s| ==> r[i] == LowerChar(s[i])
  {
    seq(|s|, i requires 0 <= i < |s| => LowerChar(s[i]))
  }

  // ---------------------------------------------------------------------------
  // Chunk lists
  // ---------------------------------------------------------------------------

  /** The bytes of a list of chunks, in order. */
  function Flatten<T>(chunks: seq<seq<T>>): seq<T>
    decreases |chunks|
  {
    if |chunks| == 0 then [] else Flatten(chunks[..|chunks| - 1]) + chunks[|chunks| - 1]
  }

  lemma FlattenAppend<T>(chunks: seq<seq<T>>, c: seq<T>)
    ensures Flatten(chunks + [c]) == Flatten(chunks) + c
  {
    assert (chunks + [c])[..|chunks|] == chunks;
  }

  /** `n` copies of the ASCII space byte 0x20. */
  function Spaces(n: nat): (r: seq<byte>)
    ensures |r| == n
    ensures forall i :: 0 <= i < n ==> r[i] == 0x20
  {
    seq(n, i => 0x20)
  }

  function Min(a: int, b: int): int {
    if a <= b then a else b
  }
}

=== FILE: encryption.dfy ===
/** Byte-level helpers of the server's video encryption: key and IV sizes,
    space padding of plaintext chunks to the AES block size, the encryption
    read loop, per-chunk IV derivation and the outcome of decrypting one
    chunk. The AES primitive itself is a parameter; base64 text encoding of
    key and IV is not modelled (they appear here as their decoded bytes). */
module Encryption {
  import opened Common

  const BlockSize: nat := 16
  /** `get_chunk_size()` and the read size of the encryption loop: 64 KiB. */
  const EncryptChunkSize: nat := 65536
  const KeyBytes: nat := 32
  const IvBytes: nat := 16

  datatype KeyMaterial = KeyMaterial(key: seq<byte>, iv: seq<byte>)

  /** `generate_key`: 32 random bytes of key, then 16 random bytes of IV, drawn
      from the random source `entropy`. */
  function GenerateKey(entropy: seq<byte>): (k: KeyMaterial)
    requires |entropy| >= KeyBytes + IvBytes
    ensures |k.key| == 32 && |k.iv| == 16
    ensures k.key + k.iv == entropy[..48]
  {
    KeyMaterial(entropy[..KeyBytes], entropy[KeyBytes..KeyBytes + IvBytes])
  }

  // ---------------------------------------------------------------------------
  // Padding
  // ---------------------------------------------------------------------------

  /** Number of space bytes appended to a chunk of length `n`. */
  function PadLength(n: nat): (p: nat)
    ensures p < BlockSize
    ensures (n + p) % BlockSize == 0
    ensures n % BlockSize == 0 <==> p == 0
  {
    if n % BlockSize != 0 then BlockSize - n % BlockSize else 0
  }

  /** A chunk whose length is not a multiple of 16 gets spaces appended up to the next multiple. */
  function PadChunk(c: seq<byte>): (r: seq<byte>)
    ensures |r| % BlockSize == 0
    ensures |c| <= |r| < |c| + BlockSize
    ensures r[..|c|] == c
    ensures forall i :: |c| <= i < |r| ==> r[i] == 0x20
    ensures |c| % BlockSize == 0 ==> r == c
  {
    c + Spaces(PadLength(|c|))
  }

  /** Padding reaches the least multiple of 16 that fits the chunk, so padding twice changes nothing. */
  lemma PadIsMinimalAndIdempotent(c: seq<byte>, m: nat)
    requires m % BlockSize == 0 && m >= |c|
    ensures |PadChunk(c)| <= m
    ensures PadChunk(PadChunk(c)) == PadChunk(c)
  {
  }

  /** The encryption loop: read 64 KiB chunks until an empty read, pad each one,
      and hand it to the (single, chained) cipher. Returns the chunks the cipher
      receives, in order: together they are the file followed by the padding
      of its last partial block. */
  method EncryptStream(file: seq<byte>) returns (toCipher: seq<seq<byte>>)
    ensures forall i :: 0 <= i < |toCipher| ==> |toCipher[i]| % BlockSize == 0 && 0 < |toCipher[i]| <= EncryptChunkSize
    ensures Flatten(toCipher) == file + Spaces(PadLength(|file|))
  {
    toCipher := [];
    var pos: nat := 0;
    EncryptInvInit(file);
    while true
      invariant EncryptInv(file, pos, toCipher)
      decreases |file| - pos
    {
      var chunk := file[pos..Min(pos + EncryptChunkSize, |file|)];
      if |chunk| == 0 {
        break;
      }
      EncryptStep(file, pos, toCipher, chunk);
      toCipher := toCipher + [PadChunk(chunk)];
      pos := pos + |chunk|;
    }
    EncryptInvExit(file, pos, toCipher);
  }

  /** The state of the encryption loop after reading `pos` bytes: reads end on
      chunk boundaries until the end of the file, and the cipher has been
      given the bytes read plus the padding of the last partial block, in
      block-aligned pieces of at most one chunk. */
  ghost predicate EncryptInv(file: seq<byte>, pos: nat, toCipher: seq<seq<byte>>) {
    && pos <= |file|
    && (pos % EncryptChunkSize == 0 || pos == |file|)
    && Flatten(toCipher) == file[..pos] + Spaces(PadLength(pos))
    && (forall i :: 0 <= i < |toCipher| ==> |toCipher[i]| % BlockSize == 0 && 0 < |toCipher[i]| <= EncryptChunkSize)
  }

  lemma EncryptInvInit(file: seq<byte>)
    ensures EncryptInv(file, 0, [])
  {
    var none: seq<seq<byte>> := [];
    assert Flatten(none) == [];
    assert Spaces(PadLength(0)) == [];
  }

  lemma EncryptInvExit(file: seq<byte>, pos: nat, toCipher: seq<seq<byte>>)
    requires EncryptInv(file, pos, toCipher)
    requires |file[pos..Min(pos + EncryptChunkSize, |file|)]| == 0
    ensures forall i :: 0 <= i < |toCipher| ==> |toCipher[i]| % BlockSize == 0 && 0 < |toCipher[i]| <= EncryptChunkSize
    ensures Flatten(toCipher) == file + Spaces(PadLength(|file|))
  {
    assert file[..pos] == file;
  }

  /** One round of the encryption loop keeps the cipher input equal to the
      bytes read so far plus the padding of the last partial block. */
  lemma EncryptStep(file: seq<byte>, pos: nat, toCipher: seq<seq<byte>>, chunk: seq<byte>)
    requires EncryptInv(file, pos, toCipher)
    requires chunk == file[pos..Min(pos + EncryptChunkSize, |file|)] && |chunk| > 0
    ensures EncryptInv(file, pos + |chunk|, toCipher + [PadChunk(chunk)])
  {
    FlattenAppend(toCipher, PadChunk(chunk));
    assert file[..pos + |chunk|] == file[..pos] + chunk;
    AlignedOffset(pos, |chunk|);
    assert Spaces(PadLength(pos)) == [];
    if |chunk| == EncryptChunkSize {
      assert (pos + EncryptChunkSize) % EncryptChunkSize == 0;
    }
    var next := toCipher + [PadChunk(chunk)];
    forall i | 0 <= i < |next|
      ensures |next[i]| % BlockSize == 0 && 0 < |next[i]| <= EncryptChunkSize
    {
      if i < |toCipher| {
        assert next[i] == toCipher[i];
      }
    }
  }

  /** After a whole number of 64 KiB chunks the padding of the next chunk alone decides. */
  lemma AlignedOffset(pos: nat, k: nat)
    requires pos % EncryptChunkSize == 0
    ensures PadLength(pos) == 0
    ensures PadLength(pos + k) == PadLength(k)
  {
    var q := pos / EncryptChunkSize;
    assert pos == 16 * (4096 * q);
    assert (16 * (4096 * q) + k) % 16 == k % 16;
  }

  // ---------------------------------------------------------------------------
  // Per-chunk IV
  // ---------------------------------------------------------------------------

  function Pow256(len: nat): (p: nat)
    ensures p > 0
  {
    if len == 0 then 1 else 256 * Pow256(len - 1)
  }

  /** Python `n.to_bytes(len, 'big')`; `None` stands for the OverflowError raised
      when `n` does not fit in `len` bytes. */
  function ToBytesBE(n: nat, len: nat): (r: Option<seq<byte>>)
    ensures r.Some? ==> |r.value| == len
    decreases len
  {
    if len == 0 then (if n == 0 then Some([]) else None)
    else
      var high := ToBytesBE(n / 256, len - 1);
      if high.None? then None else Some(high.value + [LowByte(n)])
  }

  /** The least significant byte of `n`. */
  function LowByte(n: nat): (b: byte)
    ensures b as nat == n % 256
  {
    ByteOf(n % 256)
  }

  /** The byte whose value is `m`, counted up from zero. */
  function ByteOf(m: nat): (b: byte)
    requires m < 256
    ensures b as nat == m
  {
    if m == 0 then 0 else ByteOf(m - 1) + 1
  }

  /** Value of a big-endian byte string. */
  function FromBytesBE(bs: seq<byte>): nat
    decreases |bs|
  {
    if |bs| == 0 then 0 else 256 * FromBytesBE(bs[..|bs| - 1]) + bs[|bs| - 1] as nat
  }

  /** `to_bytes` succeeds exactly for values below 256^len, and the bytes it
      gives read back as the value. */
  lemma {:induction false} ToBytesRoundTrip(n: nat, len: nat)
    ensures ToBytesBE(n, len).Some? <==> n < Pow256(len)
    ensures ToBytesBE(n, len).Some? ==> FromBytesBE(ToBytesBE(n, len).value) == n
    decreases len
  {
    if len > 0 {
      ToBytesRoundTrip(n / 256, len - 1);
      DivBound(n, Pow256(len - 1));
      var r := ToBytesBE(n, len);
      if r.Some? {
        var high := ToBytesBE(n / 256, len - 1).value;
        var bs := high + [LowByte(n)];
        assert bs[..|bs| - 1] == high;
        assert FromBytesBE(bs) == 256 * (n / 256) + n % 256;
      }
    }
  }

  lemma DivBound(n: nat, p: nat)
    ensures n / 256 < p <==> n < 256 * p
  {
  }

  /** Byte-wise XOR of two byte strings, truncated to the shorter one (Python `zip`). */
  function XorZip(a: seq<byte>, b: seq<byte>): (r: seq<byte>)
    ensures |r| == Min(|a|, |b|)
    ensures forall i :: 0 <= i < |r| ==> r[i] == a[i] ^ b[i]
  {
    seq(Min(|a|, |b|), i requires 0 <= i < Min(|a|, |b|) => a[i] ^ b[i])
  }

  /** The IV used for chunk `n`: the base IV XOR the 16-byte big-endian `n`;
      `None` stands for the OverflowError of `to_bytes` when n >= 2^128. */
  function DeriveIv(iv: seq<byte>, n: nat): (r: Option<seq<byte>>)
    ensures r.Some? <==> n < Pow256(16)
    ensures r.Some? ==> |r.value| == Min(|iv|, 16)
  {
    ToBytesRoundTrip(n, 16);
    var be := ToBytesBE(n, 16);
    if be.None? then None else Some(XorZip(iv, be.value))
  }

  /** Chunk 0 uses the base IV unchanged. */
  lemma DeriveIvZero(iv: seq<byte>)
    requires |iv| == 16
    ensures DeriveIv(iv, 0) == Some(iv)
  {
    ZeroBytes(16);
    var be := ToBytesBE(0, 16).value;
    assert XorZip(iv, be) == iv;
  }

  lemma {:induction false} ZeroBytes(len: nat)
    ensures ToBytesBE(0, len).Some?
    ensures forall i :: 0 <= i < len ==> ToBytesBE(0, len).value[i] == 0
    decreases len
  {
    if len > 0 {
      ZeroBytes(len - 1);
    }
  }

  /** Deriving twice with the same chunk number gives the base IV back, and
      different chunk numbers give different IVs. */
  lemma DeriveIvInvertible(iv: seq<byte>, n: nat, m: nat)
    requires |iv| == 16 && n < Pow256(16) && m < Pow256(16)
    ensures DeriveIv(DeriveIv(iv, n).value, n) == Some(iv)
    ensures DeriveIv(iv, n) == DeriveIv(iv, m) ==> n == m
  {
    ToBytesRoundTrip(n, 16);
    ToBytesRoundTrip(m, 16);
    var be := ToBytesBE(n, 16).value;
    var be' := ToBytesBE(m, 16).value;
    XorZipCancels(iv, be);
    if DeriveIv(iv, n) == DeriveIv(iv, m) {
      XorZipInjective(iv, be, be');
    }
  }

  lemma XorZipCancels(a: seq<byte>, b: seq<byte>)
    requires |a| == |b|
    ensures XorZip(XorZip(a, b), b) == a
  {
    var r := XorZip(XorZip(a, b), b);
    forall i | 0 <= i < |a| ensures r[i] == a[i] {
      XorByteCancels(a[i], b[i]);
    }
  }

  lemma XorZipInjective(a: seq<byte>, b: seq<byte>, c: seq<byte>)
    requires |a| == |b| == |c|
    requires XorZip(a, b) == XorZip(a, c)
    ensures b == c
  {
    forall i | 0 <= i < |a| ensures b[i] == c[i] {
      XorByteCancels(b[i], a[i]);
      XorByteCancels(c[i], a[i]);
      assert a[i] ^ b[i] == a[i] ^ c[i];
      assert b[i] ^ a[i] == a[i] ^ b[i] && c[i] ^ a[i] == a[i] ^ c[i];
    }
  }

  lemma XorByteCancels(x: byte, y: byte)
    ensures (x ^ y) ^ y == x
  {
  }

  // ---------------------------------------------------------------------------
  // Decrypting one chunk
  // ---------------------------------------------------------------------------

  /** What `decrypt_chunk` does: return plaintext, return `None`, or raise. */
  datatype Decrypted = Plain(bytes: seq<byte>) | NoPlain | Raised

  predicate ValidKeyLength(key: seq<byte>) {
    |key| == 16 || |key| == 24 || |key| == 32
  }

  /** Deriving the chunk IV or building the cipher fails: the chunk number does
      not fit in 16 bytes, the IV is shorter than 16 bytes, or the key is not
      an AES key length. None of these depends on the chunk. */
  predicate SetupFails(key: seq<byte>, iv: seq<byte>, n: nat) {
    n >= Pow256(16) || |iv| < 16 || !ValidKeyLength(key)
  }

  /** `decrypt_chunk(chunk, key, iv, n)` with the AES-CBC primitive `aes`. Deriving
      the IV and building the cipher happen outside its `try`, so an
      out-of-range chunk number, a short IV or a bad key length raise; a chunk
      whose length is not a multiple of 16 makes the cipher fail inside it,
      which yields `None`. No padding is stripped. */
  function DecryptChunk(chunk: seq<byte>, key: seq<byte>, iv: seq<byte>, n: nat,
                        aes: (seq<byte>, seq<byte>, seq<byte>) -> seq<byte>): (d: Decrypted)
    ensures d.Raised? <==> SetupFails(key, iv, n)
    ensures d.NoPlain? <==> !d.Raised? && |chunk| % BlockSize != 0
    ensures d.Plain? ==> d.bytes == aes(key, DeriveIv(iv, n).value, chunk)
  {
    var civ := DeriveIv(iv, n);
    if civ.None? || |civ.value| != 16 || !ValidKeyLength(key) then Raised
    else if |chunk| % BlockSize != 0 then NoPlain
    else Plain(aes(key, civ.value, chunk))
  }

  /** Freshly generated key material never makes decryption raise for a chunk
      number below 2^128: only the chunk length decides between plaintext and `None`. */
  lemma GeneratedKeyDecrypts(entropy: seq<byte>, chunk: seq<byte>, n: nat,
                             aes: (seq<byte>, seq<byte>, seq<byte>) -> seq<byte>)
    requires |entropy| >= KeyBytes + IvBytes
    requires n < Pow256(16)
    ensures var k := GenerateKey(entropy);
      var d := DecryptChunk(chunk, k.key, k.iv, n, aes);
      (d.Plain? <==> |chunk| % BlockSize == 0) && !d.Raised?
  {
  }
}

=== FILE: player.dfy ===
/** The playback controller: one session per open player dialog, driven by the
    media element's events, the retry timer, the Retry button and the
    metadata request. Every handler is a pure transition on `Session`; React's
    state updates are applied immediately and in order. */
module Player {
  import opened Common
  import Records

  const MaxRetries: nat := 3

  const StreamBase: string := "http://localhost:5001/api/videos/stream/"
  const ErrorPrefix: string := "Error playing video: "
  const AbortedText: string := "The video loading was aborted"
  const NetworkText: string := "Network error occurred while loading the video"
  const DecodeText: string := "Error decoding video"
  const UnsupportedText: string := "Video format not supported"
  const UnknownText: string := "Unknown error occurred"
  const MaxRetriesMessage: string := "Maximum retry attempts reached. Please try again later."
  const RetryPlayFailedMessage: string := "Failed to play video on retry"
  const InfoFetchFailedMessage: string := "Error fetching video information"
  const DefaultTitle: string := "Video Player"
  const LoadingText: string := "Loading video..."
  const BufferingText: string := "Buffering..."

  /** `HTMLMediaElement.error`: code 1 aborted, 2 network, 3 decode,
      4 source not supported (section 4.8.11.1 of the HTML Standard). */
  datatype MediaError = MediaError(code: int, message: string)

  datatype Session = Session(
    videoId: int,
    loading: bool,
    isBuffering: bool,
    error: Option<string>,
    retryCount: nat,
    /** retry timers scheduled and not yet fired */
    pendingRetries: nat,
    /** the media element's source URL */
    src: string,
    /** the media element exists (the dialog is mounted) */
    mounted: bool,
    info: Option<Records.ClientVideo>)

  datatype Event =
    | LoadStart
    | CanPlay
    | Waiting
    | Playing
    | LoadedMetadata
    | MediaFailed(err: Option<MediaError>)
    /** a scheduled retry timer fires at clock reading `now` (milliseconds) */
    | RetryTimerFired(now: nat)
    /** the user presses "Retry Playback" at clock reading `now` */
    | RetryClicked(now: nat)
    /** the promise returned by `play()` after a retry was rejected */
    | RetryPlayRejected
    | InfoFetched(videos: seq<Records.ClientVideo>)
    | InfoFetchFailed

  /** The URL the `<video>` element is rendered with. */
  function StreamUrl(videoId: int): string {
    StreamBase + ShowInt(videoId)
  }

  /** The URL a retry assigns: the stream URL with the clock reading as cache buster. */
  function CacheBustedUrl(videoId: int, now: nat): string {
    StreamUrl(videoId) + "?t=" + ShowNat(now)
  }

  /** The retry-count bound, and no live retry timer once torn down. */
  ghost predicate Valid(s: Session) {
    && s.retryCount <= MaxRetries
    && (!s.mounted ==> s.pendingRetries == 0)
  }

  /** Mounting the player for `videoId`: the initial state, which the mount effect
      re-asserts (loading, buffering, no error, no retries yet). */
  function Open(videoId: int): (s: Session)
    ensures Valid(s)
    ensures s.videoId == videoId && s.mounted && s.src == StreamUrl(videoId)
    ensures s.loading && s.isBuffering && s.error == None
    ensures s.retryCount == 0 && s.pendingRetries == 0
  {
    Session(videoId, true, true, None, 0, 0, StreamUrl(videoId), true, None)
  }

  /** Unmount cleanup. It clears only the last scheduled retry timer; any
      earlier one fires into the unmounted component, finds no element and
      sets state that is dropped, so no timer has an effect afterwards and none
      is kept pending. By the time the cleanup runs, React has already cleared
      the element ref, so its pause-and-detach branch is skipped: the source
      is left as it was. */
  function TearDown(s: Session): (t: Session)
    ensures Valid(s) ==> Valid(t)
    ensures !t.mounted && t.pendingRetries == 0
    ensures t.src == s.src && t.videoId == s.videoId && t.info == s.info
    ensures t.error == s.error && t.retryCount == s.retryCount
    ensures t.loading == s.loading && t.isBuffering == s.isBuffering
  {
    s.(pendingRetries := 0, mounted := false)
  }

  /** The text after "Error playing video: " for an error object. */
  function Describe(e: MediaError): string {
    if e.code == 1 then AbortedText
    else if e.code == 2 then NetworkText
    else if e.code == 3 then DecodeText
    else if e.code == 4 then UnsupportedText
    else e.message
  }

  /** Whether an `error` event schedules an automatic retry instead of reporting. */
  predicate SchedulesRetry(s: Session, err: Option<MediaError>) {
    err.Some? && err.value.code == 2 && s.retryCount < MaxRetries
  }

  /** `handleError`. */
  function HandleError(s: Session, err: Option<MediaError>): (t: Session)
    ensures SchedulesRetry(s, err) ==>
      t == s.(pendingRetries := s.pendingRetries + 1)
    ensures !SchedulesRetry(s, err) ==>
      && t.error.Some?
      && t.error.value == ErrorPrefix + (if err.None? then UnknownText else Describe(err.value))
      && !t.loading && !t.isBuffering
      && t.pendingRetries == s.pendingRetries
      && t.retryCount == s.retryCount && t.src == s.src
  {
    match err
    case None => s.(error := Some(ErrorPrefix + UnknownText), loading := false, isBuffering := false)
    case Some(e) =>
      if e.code == 2 && s.retryCount < MaxRetries then
        s.(pendingRetries := s.pendingRetries + 1)
      else
        s.(error := Some(ErrorPrefix + Describe(e)), loading := false, isBuffering := false)
  }

  /** `retryPlayback`: with the element present and budget left, clear the error,
      count the attempt and reload from a cache-busted URL; otherwise only report. */
  function RetryPlayback(s: Session, now: nat): (t: Session)
    ensures s.mounted && s.retryCount < MaxRetries ==>
      t == s.(error := None, retryCount := s.retryCount + 1, src := CacheBustedUrl(s.videoId, now))
    ensures !(s.mounted && s.retryCount < MaxRetries) ==>
      t == s.(error := Some(MaxRetriesMessage))
  {
    if s.mounted && s.retryCount < MaxRetries then
      s.(error := None, retryCount := s.retryCount + 1, src := CacheBustedUrl(s.videoId, now))
    else
      s.(error := Some(MaxRetriesMessage))
  }

  /** One event delivered to the session. A torn-down session has no element and
      no live handlers, so it ignores everything. */
  function Step(s: Session, e: Event): Session {
    if !s.mounted then s
    else
      match e
      case LoadStart => s.(loading := true, isBuffering := true, error := None)
      case CanPlay => s.(loading := false, isBuffering := false, error := None, retryCount := 0)
      case Waiting => s.(isBuffering := true)
      case Playing => s.(isBuffering := false)
      case LoadedMetadata => s.(loading := false)
      case MediaFailed(err) => HandleError(s, err)
      case RetryTimerFired(now) =>
        if s.pendingRetries == 0 then s
        else RetryPlayback(s.(pendingRetries := s.pendingRetries - 1), now)
      case RetryClicked(now) => RetryPlayback(s, now)
      case RetryPlayRejected => s.(error := Some(RetryPlayFailedMessage))
      case InfoFetched(videos) =>
        var v := Records.FindById(videos, s.videoId);
        if v.Some? then s.(info := v) else s
      case InfoFetchFailed => s.(error := Some(InfoFetchFailedMessage))
  }

  function Run(s: Session, events: seq<Event>): Session
    decreases |events|
  {
    if |events| == 0 then s else Run(Step(s, events[0]), events[1..])
  }

  /** Whether delivering `e` makes a retry attempt (counts it and reloads). */
  predicate IsRetryAttempt(s: Session, e: Event) {
    && s.mounted
    && s.retryCount < MaxRetries
    && ((e.RetryTimerFired? && s.pendingRetries > 0) || e.RetryClicked?)
  }

  /** Number of retry attempts a run of events makes. */
  function RetryAttempts(s: Session, events: seq<Event>): nat
    decreases |events|
  {
    if |events| == 0 then 0
    else (if IsRetryAttempt(s, events[0]) then 1 else 0) + RetryAttempts(Step(s, events[0]), events[1..])
  }

  // ---------------------------------------------------------------------------
  // View
  // ---------------------------------------------------------------------------

  /** The overlay over the video: shown while loading or buffering, and then
      saying "Loading video..." whenever loading, "Buffering..." otherwise. */
  function Overlay(s: Session): (r: Option<string>)
    ensures r.None? <==> !s.loading && !s.isBuffering
    ensures r.Some? ==> (r.value == LoadingText <==> s.loading)
    ensures r.Some? ==> r.value in {LoadingText, BufferingText}
  {
    if s.loading then Some(LoadingText)
    else if s.isBuffering then Some(BufferingText)
    else None
  }

  /** The dialog title: `original_filename` of the fetched record, or the default
      when there is no record or its name is empty (JavaScript's `||`). */
  function Title(s: Session): (r: string)
    ensures r != ""
    ensures r == DefaultTitle || (s.info.Some? && r == s.info.value.originalFilename)
    ensures s.info.Some? && s.info.value.originalFilename != "" ==> r == s.info.value.originalFilename
  {
    if s.info.Some? && s.info.value.originalFilename != "" then s.info.value.originalFilename
    else DefaultTitle
  }

  // ---------------------------------------------------------------------------
  // Properties
  // ---------------------------------------------------------------------------

  /** Every event keeps the retry count within its bound, and an unmounted player without pending timers. */
  lemma StepPreservesValid(s: Session, e: Event)
    requires Valid(s)
    ensures Valid(Step(s, e))
  {
  }

  lemma {:induction false} RunPreservesValid(s: Session, events: seq<Event>)
    requires Valid(s)
    ensures Valid(Run(s, events))
    ensures Run(s, events).retryCount <= MaxRetries
    decreases |events|
  {
    if |events| > 0 {
      StepPreservesValid(s, events[0]);
      RunPreservesValid(Step(s, events[0]), events[1..]);
    }
  }

  /** Only a network error (code 2) below the bound schedules a retry, and it
      schedules exactly one; nothing else adds a pending timer. */
  lemma OnlyNetworkErrorSchedules(s: Session, e: Event)
    ensures Step(s, e).pendingRetries > s.pendingRetries <==>
      s.mounted && e.MediaFailed? && e.err.Some? && e.err.value.code == 2 && s.retryCount < MaxRetries
    ensures Step(s, e).pendingRetries <= s.pendingRetries + 1
  {
  }

  /** A scheduled retry leaves the reported state alone: no error, loading or buffering change. */
  lemma ScheduledRetryIsSilent(s: Session, e: MediaError)
    requires s.mounted && e.code == 2 && s.retryCount < MaxRetries
    ensures var t := Step(s, MediaFailed(Some(e)));
      t.error == s.error && t.loading == s.loading && t.isBuffering == s.isBuffering
      && t.pendingRetries == s.pendingRetries + 1 && t.src == s.src
  {
  }

  /** Without an intervening `canplay`, the retry count records exactly the
      attempts made, so a session never makes more than `MaxRetries` of them. */
  lemma {:induction false} RetryAttemptsCounted(s: Session, events: seq<Event>)
    requires forall i :: 0 <= i < |events| ==> !events[i].CanPlay?
    ensures Run(s, events).retryCount == s.retryCount + RetryAttempts(s, events)
    decreases |events|
  {
    if |events| > 0 {
      RetryAttemptsCounted(Step(s, events[0]), events[1..]);
    }
  }

  lemma RetryBudget(s: Session, events: seq<Event>)
    requires Valid(s)
    requires forall i :: 0 <= i < |events| ==> !events[i].CanPlay?
    ensures RetryAttempts(s, events) <= MaxRetries - s.retryCount
  {
    RetryAttemptsCounted(s, events);
    RunPreservesValid(s, events);
  }

  /** At the bound a retry changes nothing but the error message. */
  lemma RetryAtLimitOnlyReports(s: Session, now: nat)
    requires s.retryCount >= MaxRetries
    ensures var t := RetryPlayback(s, now);
      t.error == Some(MaxRetriesMessage) && t.retryCount == s.retryCount && t.src == s.src
      && t.loading == s.loading && t.isBuffering == s.isBuffering
  {
  }

  /** A retry's source URL names the session's own video and differs from the
      plain stream URL and from the URL of a retry at any other clock reading. */
  lemma CacheBusterIsFresh(id: int, id': int, t: nat, t': nat)
    ensures CacheBustedUrl(id, t) == CacheBustedUrl(id', t') <==> id == id' && t == t'
    ensures CacheBustedUrl(id, t) != StreamUrl(id')
  {
    var a, b := ShowInt(id), ShowInt(id');
    var x, y := ShowNat(t), ShowNat(t');
    NoQuery(a, id);
    NoQuery(b, id');
    if CacheBustedUrl(id, t) == CacheBustedUrl(id', t') {
      var u := CacheBustedUrl(id, t);
      assert u == StreamBase + (a + "?" + ("t=" + x));
      assert u == StreamBase + (b + "?" + ("t=" + y));
      assert a + "?" + ("t=" + x) == u[|StreamBase|..] == b + "?" + ("t=" + y);
      SplitAtQuery(a, b, "t=" + x, "t=" + y);
      ShowIntInjective(id, id');
      assert x == ("t=" + x)[2..];
      assert y == ("t=" + y)[2..];
      ShowNatInjective(t, t');
    }
    NotPlain(a, b, x);
  }

  /** Text that has no '?' before the one that starts the query is determined by it. */
  lemma SplitAtQuery(a: string, b: string, p: string, q: string)
    requires forall i :: 0 <= i < |a| ==> a[i] != '?'
    requires forall i :: 0 <= i < |b| ==> b[i] != '?'
    requires a + "?" + p == b + "?" + q
    ensures a == b && p == q
  {
    QueryStart(a, p);
    QueryStart(b, q);
    assert a == (a + "?" + p)[..|a|];
    assert b == (b + "?" + q)[..|b|];
    assert p == (a + "?" + p)[|a| + 1..];
    assert q == (b + "?" + q)[|b| + 1..];
  }

  lemma NotPlain(a: string, b: string, x: string)
    requires forall i :: 0 <= i < |a| ==> a[i] != '?'
    requires forall i :: 0 <= i < |b| ==> b[i] != '?'
    ensures StreamBase + a + "?t=" + x != StreamBase + b
  {
    var u := StreamBase + a + "?t=" + x;
    assert u == (StreamBase + a) + "?" + ("t=" + x);
    QueryStart(StreamBase + a, "t=" + x);
    NoQueryNone(StreamBase + b);
  }

  /** Index of the first '?' in `s`, or `|s|` when there is none. */
  function FirstQuery(s: string): (i: nat)
    ensures i <= |s|
    decreases |s|
  {
    if |s| == 0 then 0 else if s[0] == '?' then 0 else 1 + FirstQuery(s[1..])
  }

  lemma {:induction false} QueryStart(a: string, rest: string)
    requires forall i :: 0 <= i < |a| ==> a[i] != '?'
    ensures FirstQuery(a + "?" + rest) == |a|
    decreases |a|
  {
    if |a| > 0 {
      assert (a + "?" + rest)[1..] == a[1..] + "?" + rest;
      QueryStart(a[1..], rest);
    }
  }

  lemma {:induction false} NoQueryNone(s: string)
    requires forall i :: 0 <= i < |s| ==> s[i] != '?'
    ensures FirstQuery(s) == |s|
    decreases |s|
  {
    if |s| > 0 {
      NoQueryNone(s[1..]);
    }
  }

  /** The decimal text of an id contains no '?'. */
  lemma NoQuery(s: string, id: int)
    requires s == ShowInt(id)
    ensures forall i :: 0 <= i < |s| ==> s[i] != '?'
  {
    if id < 0 {
      forall i | 1 <= i < |s| ensures s[i] != '?' {
        assert s[i] == ShowNat(-id)[i - 1];
      }
    }
  }

  /** Tear-down is final: after it no event changes the session, and tearing down again is a no-op. */
  lemma {:induction false} TornDownIsInert(s: Session, events: seq<Event>)
    ensures Run(TearDown(s), events) == TearDown(s)
    ensures TearDown(TearDown(s)) == TearDown(s)
    decreases |events|
  {
    if |events| > 0 {
      assert Step(TearDown(s), events[0]) == TearDown(s);
      TornDownIsInert(s, events[1..]);
    }
  }

  /** `canplay` resets the retry budget and clears every indicator; `loadstart`
      raises both indicators and clears the error; `waiting` and `playing` touch
      only the buffering flag. */
  lemma MediaEventEffects(s: Session)
    requires s.mounted
    ensures Step(s, CanPlay) == s.(loading := false, isBuffering := false, error := None, retryCount := 0)
    ensures Step(s, LoadStart) == s.(loading := true, isBuffering := true, error := None)
    ensures Step(s, Waiting) == s.(isBuffering := true)
    ensures Step(s, Playing) == s.(isBuffering := false)
    ensures Step(s, LoadedMetadata) == s.(loading := false)
  {
  }

  /** What the overlay shows as the media events arrive: the loading text from
      the moment the player opens or `loadstart` fires, nothing once `canplay`
      fires or an error is reported, and a scheduled retry leaves it as it was. */
  lemma OverlayFollowsEvents(id: int, s: Session, err: Option<MediaError>)
    requires s.mounted
    ensures Overlay(Open(id)) == Some(LoadingText)
    ensures Overlay(Step(s, LoadStart)) == Some(LoadingText)
    ensures Overlay(Step(s, CanPlay)).None?
    ensures Overlay(Step(s, Waiting)) == Some(if s.loading then LoadingText else BufferingText)
    ensures Overlay(Step(s, Playing)) == (if s.loading then Some(LoadingText) else None)
    ensures SchedulesRetry(s, err) ==> Overlay(Step(s, MediaFailed(err))) == Overlay(s)
    ensures !SchedulesRetry(s, err) ==> Overlay(Step(s, MediaFailed(err))).None?
  {
  }

  /** The metadata response sets the title: the file name of the first record
      with the session's id when it has one, the default when that name is
      empty, and no change when no record has the id. */
  lemma TitleAfterInfo(s: Session, videos: seq<Records.ClientVideo>)
    requires s.mounted
    ensures var v := Records.FindById(videos, s.videoId);
      && (v.None? ==> Title(Step(s, InfoFetched(videos))) == Title(s))
      && (v.Some? && v.value.originalFilename != "" ==>
            Title(Step(s, InfoFetched(videos))) == v.value.originalFilename)
      && (v.Some? && v.value.originalFilename == "" ==>
            Title(Step(s, InfoFetched(videos))) == DefaultTitle)
  {
  }

  /** The record a session holds is always one with the session's id. */
  ghost predicate InfoMatches(s: Session) {
    s.info.Some? ==> s.info.value.id == s.videoId
  }

  /** However the events arrive, a player opened for `id` only ever titles
      itself with a record whose id is `id`, or with the default. */
  lemma {:induction false} TitleNamesTheVideo(id: int, events: seq<Event>)
    ensures var t := Run(Open(id), events);
      (t.info.Some? ==> t.info.value.id == id)
      && (Title(t) == DefaultTitle || (t.info.Some? && Title(t) == t.info.value.originalFilename))
  {
    RunKeepsInfoMatching(Open(id), events);
    RunKeepsVideoId(Open(id), events);
  }

  lemma {:induction false} RunKeepsInfoMatching(s: Session, events: seq<Event>)
    requires InfoMatches(s)
    ensures InfoMatches(Run(s, events))
    decreases |events|
  {
    if |events| > 0 {
      var t := Step(s, events[0]);
      assert InfoMatches(t);
      RunKeepsInfoMatching(t, events[1..]);
    }
  }

  lemma {:induction false} RunKeepsVideoId(s: Session, events: seq<Event>)
    ensures Run(s, events).videoId == s.videoId
    decreases |events|
  {
    if |events| > 0 {
      RunKeepsVideoId(Step(s, events[0]), events[1..]);
    }
  }

  /** Opening video 7 and failing with a network error four times in a row, each
      scheduled retry firing in between: three retries, then a reported network
      error with no fourth retry scheduled. */
  lemma NetworkFailuresExhaustRetries(t1: nat, t2: nat, t3: nat)
    ensures var net := MediaFailed(Some(MediaError(2, "")));
      var s := Run(Open(7), [net, RetryTimerFired(t1), net, RetryTimerFired(t2), net, RetryTimerFired(t3), net]);
      && s.retryCount == MaxRetries
      && s.pendingRetries == 0
      && s.error == Some(ErrorPrefix + NetworkText)
      && !s.loading && !s.isBuffering
      && s.src == CacheBustedUrl(7, t3)
  {
    var net := MediaFailed(Some(MediaError(2, "")));
    var s0 := Open(7);
    var s1 := Step(s0, net);
    var s2 := Step(s1, RetryTimerFired(t1));
    var s3 := Step(s2, net);
    var s4 := Step(s3, RetryTimerFired(t2));
    var s5 := Step(s4, net);
    var s6 := Step(s5, RetryTimerFired(t3));
    var s7 := Step(s6, net);
    assert s6.retryCount == 3;
    assert Run(s6, [net]) == s7 by { assert [net][1..] == []; }
    RunCons(s5, RetryTimerFired(t3), [net]);
    RunCons(s4, net, [RetryTimerFired(t3), net]);
    RunCons(s3, RetryTimerFired(t2), [net, RetryTimerFired(t3), net]);
    RunCons(s2, net, [RetryTimerFired(t2), net, RetryTimerFired(t3), net]);
    RunCons(s1, RetryTimerFired(t1), [net, RetryTimerFired(t2), net, RetryTimerFired(t3), net]);
    RunCons(s0, net, [RetryTimerFired(t1), net, RetryTimerFired(t2), net, RetryTimerFired(t3), net]);
  }

  lemma RunCons(s: Session, e: Event, rest: seq<Event>)
    ensures Run(s, [e] + rest) == Run(Step(s, e), rest)
  {
    assert ([e] + rest)[1..] == rest;
  }

  /** Opening video 42, one network failure, the retry, then `canplay`: playing
      from a cache-busted source with no error and a fresh retry budget. */
  lemma NetworkFailureRecovers(now: nat)
    ensures var s := Run(Open(42), [MediaFailed(Some(MediaError(2, ""))), RetryTimerFired(now), LoadStart, CanPlay, Playing]);
      && s.src == CacheBustedUrl(42, now)
      && s.error == None && !s.loading && !s.isBuffering
      && s.retryCount == 0 && s.pendingRetries == 0
  {
    var s0 := Open(42);
    var s1 := Step(s0, MediaFailed(Some(MediaError(2, ""))));
    var s2 := Step(s1, RetryTimerFired(now));
    var s3 := Step(s2, LoadStart);
    var s4 := Step(s3, CanPlay);
    var s5 := Step(s4, Playing);
    assert Run(s4, [Playing]) == s5 by { assert [Playing][1..] == []; }
    RunCons(s3, CanPlay, [Playing]);
    RunCons(s2, LoadStart, [CanPlay, Playing]);
    RunCons(s1, RetryTimerFired(now), [LoadStart, CanPlay, Playing]);
    RunCons(s0, MediaFailed(Some(MediaError(2, ""))), [RetryTimerFired(now), LoadStart, CanPlay, Playing]);
  }
}

=== FILE: range_header.dfy ===
/** Parsing of the HTTP `Range` request header as the stream endpoint does it:
    an unanchored search for `bytes=(\d+)-(\d*)`, a missing end meaning the last
    byte of the file, and the `Content-Range` / `Content-Length` values derived
    from the two positions (sections 2.1, 4.1 and 4.2 of RFC 7233 define the
    formats). The positions are not checked against each other or against the
    file size. Digits are ASCII digits. A group longer than CPython's limit
    on decimal strings given to `int()` makes the conversion raise. */
module RangeHeader {
  import opened Common

  const Prefix: string := "bytes="
  /** CPython's default bound on the digits of a decimal string given to `int()`
      (`sys.int_info.default_max_str_digits`); a longer string raises
      `ValueError`, leading zeros included. */
  const MaxStrDigits: nat := 4300

  /** Length of the run of digits starting at `i`. */
  function DigitSpan(h: string, i: nat): (k: nat)
    requires i <= |h|
    ensures i + k <= |h|
    ensures forall j :: i <= j < i + k ==> IsDigit(h[j])
    ensures i + k < |h| ==> !IsDigit(h[i + k])
    decreases |h| - i
  {
    if i < |h| && IsDigit(h[i]) then 1 + DigitSpan(h, i + 1) else 0
  }

  /** The first group ends at `start + k`: `k` digits, then '-'. */
  ghost predicate FirstGroupEndsAt(h: string, start: nat, k: nat) {
    0 < k && start + k < |h| && h[start + k] == '-' && AllDigits(h[start..start + k])
  }

  /** The regular expression, read literally: at `i` the text "bytes=", then a
      non-empty run of digits, then '-' (the second group may be empty). */
  ghost predicate RegexMatchesAt(h: string, i: nat) {
    && i + |Prefix| <= |h|
    && h[i..i + |Prefix|] == Prefix
    && FirstGroupAt(h, i + |Prefix|)
  }

  ghost predicate FirstGroupAt(h: string, start: nat) {
    exists k: nat :: FirstGroupEndsAt(h, start, k)
  }

  /** The same match, computed: the greedy first group is the whole digit run. */
  predicate MatchesAt(h: string, i: nat) {
    && i + |Prefix| <= |h|
    && h[i..i + |Prefix|] == Prefix
    && var d := DigitSpan(h, i + |Prefix|);
       d > 0 && i + |Prefix| + d < |h| && h[i + |Prefix| + d] == '-'
  }

  /** The greedy reading matches exactly where the regular expression does,
      and the first group can only be the whole digit run, since '-' is not a digit. */
  lemma MatchesAtIsRegexMatch(h: string, i: nat)
    ensures MatchesAt(h, i) <==> RegexMatchesAt(h, i)
    ensures MatchesAt(h, i) ==> FirstGroupEndsAt(h, i + |Prefix|, DigitSpan(h, i + |Prefix|))
  {
    var start := i + |Prefix|;
    if RegexMatchesAt(h, i) {
      var k: nat :| FirstGroupEndsAt(h, start, k);
      DigitsOfSlice(h, start, k);
      DigitSpanExact(h, start, k);
    }
    if MatchesAt(h, i) {
      var d := DigitSpan(h, start);
      assert FirstGroupEndsAt(h, start, d);
    }
  }

  /** The digits of a slice are digits of the whole string. */
  lemma DigitsOfSlice(h: string, start: nat, k: nat)
    requires start + k <= |h| && AllDigits(h[start..start + k])
    ensures forall j :: start <= j < start + k ==> IsDigit(h[j])
  {
    forall j | start <= j < start + k ensures IsDigit(h[j]) {
      assert h[j] == h[start..start + k][j - start];
    }
  }

  /** A digit run followed by a non-digit (or the end) has exactly its own length. */
  lemma {:induction false} DigitSpanExact(h: string, i: nat, k: nat)
    requires i + k <= |h|
    requires forall j :: i <= j < i + k ==> IsDigit(h[j])
    requires i + k < |h| ==> !IsDigit(h[i + k])
    ensures DigitSpan(h, i) == k
    decreases k
  {
    if k > 0 {
      DigitSpanExact(h, i + 1, k - 1);
    }
  }

  /** `re.search`: the leftmost position at or after `i` where the pattern matches. */
  function Search(h: string, i: nat): (r: Option<nat>)
    requires i <= |h|
    ensures r.Some? ==> i <= r.value <= |h| && MatchesAt(h, r.value)
    ensures r.Some? ==> forall j :: i <= j < r.value ==> !MatchesAt(h, j)
    ensures r.None? ==> forall j :: i <= j <= |h| ==> !MatchesAt(h, j)
    decreases |h| - i
  {
    if MatchesAt(h, i) then Some(i)
    else if i == |h| then None
    else Search(h, i + 1)
  }

  /** The two groups as the endpoint reads them: the start, and the end when
      the second group is non-empty. */
  datatype ParsedRange = ParsedRange(first: nat, last: Option<nat>)

  /** Reading the header: the two positions, or the `ValueError` of an `int()`
      conversion, which names the digit count of the group it refused. */
  datatype ParseOutcome = Parsed(groups: ParsedRange) | TooManyDigits(digits: nat)

  /** `int()` of the first group, then of the second when it is non-empty: the
      first group over the digit limit raises before the second is looked at. */
  function ReadGroups(first: string, second: string): (p: ParseOutcome)
    requires AllDigits(first) && AllDigits(second)
    ensures p.TooManyDigits? <==> |first| > MaxStrDigits || |second| > MaxStrDigits
    ensures |first| > MaxStrDigits ==> p == TooManyDigits(|first|)
    ensures |first| <= MaxStrDigits && |second| > MaxStrDigits ==> p == TooManyDigits(|second|)
    ensures p.Parsed? ==> p.groups.first == ParseNat(first) && (p.groups.last.Some? <==> |second| > 0)
    ensures p.Parsed? && |second| > 0 ==> p.groups.last.value == ParseNat(second)
  {
    if |first| > MaxStrDigits then TooManyDigits(|first|)
    else if |second| > MaxStrDigits then TooManyDigits(|second|)
    else Parsed(ParsedRange(ParseNat(first), if |second| > 0 then Some(ParseNat(second)) else None))
  }

  function GroupsAt(h: string, i: nat): ParseOutcome
    requires MatchesAt(h, i)
  {
    var start := i + |Prefix|;
    var d := DigitSpan(h, start);
    var second := start + d + 1;
    var e := DigitSpan(h, second);
    ReadGroups(h[start..start + d], h[second..second + e])
  }

  /** A header the pattern does not match leaves the defaults: start 0, no end.
      A refused conversion is only ever of an over-long group. */
  function Parse(h: string): (p: ParseOutcome)
    ensures (forall j :: 0 <= j <= |h| ==> !MatchesAt(h, j)) ==> p == Parsed(ParsedRange(0, None))
    ensures p.TooManyDigits? ==> p.digits > MaxStrDigits
  {
    var m := Search(h, 0);
    if m.None? then Parsed(ParsedRange(0, None)) else GroupsAt(h, m.value)
  }

  /** The first and last byte asked for and the length declared for them. */
  datatype Resolved = Resolved(byte1: nat, byte2: int, length: int)

  /** A missing end means the last byte of the file; the length counts both ends. */
  function Resolve(p: ParsedRange, fileSize: nat): (r: Resolved)
    ensures r.byte1 == p.first
    ensures p.last.Some? ==> r.byte2 == p.last.value
    ensures p.last.None? ==> r.byte2 == fileSize - 1
    ensures r.length == r.byte2 - r.byte1 + 1
  {
    var byte2: int := if p.last.Some? then p.last.value else fileSize - 1;
    Resolved(p.first, byte2, byte2 - p.first + 1)
  }

  /** The `Content-Range` value `bytes {first}-{last}/{size}` (section 4.2 of RFC 7233). */
  function ContentRange(first: int, last: int, size: int): string {
    "bytes " + ShowInt(first) + "-" + ShowInt(last) + "/" + ShowInt(size)
  }

  // ---------------------------------------------------------------------------
  // Properties
  // ---------------------------------------------------------------------------

  /** The header a client sends for one range: `bytes=a-b`, or `bytes=a-`
      for everything from `a` on (section 2.1 of RFC 7233). */
  function RangeText(first: nat, last: Option<nat>): (h: string)
    ensures |h| > |Prefix| && h[..|Prefix|] == Prefix
  {
    Prefix + ShowNat(first) + "-" + (if last.Some? then ShowNat(last.value) else "")
  }

  /** A position `int()` reads back from its decimal text. */
  predicate WithinDigitLimit(n: nat) {
    |ShowNat(n)| <= MaxStrDigits
  }

  /** The outcome of reading `bytes=a-b` or `bytes=a-`: the positions, unless
      the start, or else the end, has more digits than `int()` accepts. */
  function Expected(a: nat, b: Option<nat>): ParseOutcome {
    if !WithinDigitLimit(a) then TooManyDigits(|ShowNat(a)|)
    else if b.Some? && !WithinDigitLimit(b.value) then TooManyDigits(|ShowNat(b.value)|)
    else Parsed(ParsedRange(a, b))
  }

  /** A well-formed single range reads back as the positions it was written
      from: `bytes=a-b` as `a` and `b`, and `bytes=a-` as `a` with no end,
      unless a position has more than 4300 digits, which `int()` refuses. */
  lemma ParseWellFormed(a: nat, b: Option<nat>)
    ensures Parse(RangeText(a, b)) == Expected(a, b)
    ensures WithinDigitLimit(a) && (b.Some? ==> WithinDigitLimit(b.value)) ==>
      Parse(RangeText(a, b)) == Parsed(ParsedRange(a, b))
  {
    ParseWithTrailing(a, b, "");
    assert RangeText(a, b) + "" == RangeText(a, b);
  }

  /** Text after a matched range that does not extend its second digit run is
      ignored: `bytes=a-b` or `bytes=a-` followed by anything not starting
      with a digit reads as `a` and `b`, or fails on the same over-long group. */
  lemma ParseWithTrailing(a: nat, b: Option<nat>, rest: string)
    requires |rest| == 0 || !IsDigit(rest[0])
    ensures Parse(RangeText(a, b) + rest) == Expected(a, b)
    ensures !WithinDigitLimit(a) ==> Parse(RangeText(a, b) + rest) == TooManyDigits(|ShowNat(a)|)
    ensures WithinDigitLimit(a) && b.Some? && !WithinDigitLimit(b.value) ==>
      Parse(RangeText(a, b) + rest) == TooManyDigits(|ShowNat(b.value)|)
  {
    var tail := if b.Some? then ShowNat(b.value) else "";
    ParseLayout(ShowNat(a), tail, rest);
    ParseShowNat(a);
    if b.Some? {
      ParseShowNat(b.value);
    }
  }

  /** The digit limit counts characters, not value: a start of more than 4300
      digits is refused even when it is all zeros. */
  lemma OverlongStartRefused(digits: string)
    requires AllDigits(digits) && |digits| > MaxStrDigits
    ensures Parse(Prefix + digits + "-") == TooManyDigits(|digits|)
  {
    ParseLayout(digits, "", "");
    assert Prefix + digits + "-" + "" + "" == Prefix + digits + "-";
  }

  /** A multi-range header (section 2.1 of RFC 7233) is served as its first range alone. */
  lemma MultiRangeUsesFirst()
    ensures Parse("bytes=0-499,1000-") == Parsed(ParsedRange(0, Some(499)))
  {
    assert AllDigits("0") && AllDigits("499");
    ParseLayout("0", "499", ",1000-");
    assert Prefix + "0" + "-" + "499" + ",1000-" == "bytes=0-499,1000-";
    FirstRangeGroups();
  }

  lemma FirstRangeGroups()
    ensures ReadGroups("0", "499") == Parsed(ParsedRange(0, Some(499)))
  {
    assert ParseNat("0") == 0;
    assert ParseNat("499") == 499 by {
      assert "499"[..2] == "49" && "49"[..1] == "4" && "4"[..0] == "";
    }
  }

  /** A header that starts with the prefix, a digit run, '-' and a digit run,
      followed by text that does not start with a digit, matches at its start
      with the two runs as its groups. */
  lemma ParseLayout(A: string, tail: string, rest: string)
    requires |A| > 0 && AllDigits(A) && AllDigits(tail)
    requires |rest| == 0 || !IsDigit(rest[0])
    ensures Parse(Prefix + A + "-" + tail + rest) == ReadGroups(A, tail)
  {
    var B := Prefix + A + "-";
    var h := Prefix + A + "-" + tail + rest;
    assert h == B + (tail + rest);
    LayoutFirstGroup(h, A, tail + rest);
    LayoutSecondGroup(h, B, tail, rest);
    LayoutMatches(h, A, tail);
    assert Search(h, 0) == Some(0);
  }

  lemma LayoutMatches(h: string, A: string, tail: string)
    requires |A| > 0 && AllDigits(A) && AllDigits(tail)
    requires |h| >= |Prefix| + |A| + 1 + |tail|
    requires h[0..|Prefix|] == Prefix
    requires DigitSpan(h, |Prefix|) == |A| && h[|Prefix| + |A|] == '-'
    requires h[|Prefix|..|Prefix| + |A|] == A
    requires DigitSpan(h, |Prefix| + |A| + 1) == |tail|
    requires h[|Prefix| + |A| + 1..|Prefix| + |A| + 1 + |tail|] == tail
    ensures MatchesAt(h, 0)
    ensures GroupsAt(h, 0) == ReadGroups(A, tail)
  {
    LayoutMatchesAt(h, |A|);
    LayoutGroups(h, |A|, |tail|);
  }

  lemma LayoutMatchesAt(h: string, d: nat)
    requires |Prefix| + d < |h| && h[0..|Prefix|] == Prefix
    requires d > 0 && DigitSpan(h, |Prefix|) == d && h[|Prefix| + d] == '-'
    ensures MatchesAt(h, 0)
  {
  }

  /** The groups of a match at the start, given the lengths of its two digit runs. */
  lemma LayoutGroups(h: string, d: nat, e: nat)
    requires MatchesAt(h, 0)
    requires DigitSpan(h, |Prefix|) == d
    requires DigitSpan(h, |Prefix| + d + 1) == e
    ensures GroupsAt(h, 0) == ReadGroups(h[|Prefix|..|Prefix| + d], h[|Prefix| + d + 1..|Prefix| + d + 1 + e])
  {
  }

  lemma LayoutFirstGroup(h: string, A: string, tail: string)
    requires |A| > 0 && AllDigits(A)
    requires h == Prefix + A + "-" + tail
    ensures |h| == |Prefix| + |A| + 1 + |tail|
    ensures h[0..|Prefix|] == Prefix
    ensures DigitSpan(h, |Prefix|) == |A|
    ensures h[|Prefix| + |A|] == '-'
    ensures h[|Prefix|..|Prefix| + |A|] == A
  {
    var start := |Prefix|;
    forall j | start <= j < start + |A| ensures IsDigit(h[j]) {
      assert h[j] == A[j - start];
    }
    assert h[start + |A|] == '-';
    DigitSpanExact(h, start, |A|);
  }

  lemma LayoutSecondGroup(h: string, B: string, tail: string, rest: string)
    requires AllDigits(tail)
    requires |rest| == 0 || !IsDigit(rest[0])
    requires h == B + (tail + rest)
    ensures |h| == |B| + |tail| + |rest|
    ensures DigitSpan(h, |B|) == |tail|
    ensures h[|B|..|B| + |tail|] == tail
  {
    assert h[|B|..] == tail + rest;
    TrailingRun(h, |B|, tail, rest);
  }

  /** A digit run followed by a non-digit or the end, read from a position. */
  lemma TrailingRun(h: string, i: nat, tail: string, rest: string)
    requires i <= |h| && h[i..] == tail + rest
    requires AllDigits(tail)
    requires |rest| == 0 || !IsDigit(rest[0])
    ensures DigitSpan(h, i) == |tail|
    ensures h[i..i + |tail|] == tail
  {
    forall j | i <= j < i + |tail| ensures IsDigit(h[j]) {
      assert h[j] == h[i..][j - i] == tail[j - i];
    }
    if |rest| > 0 {
      assert h[i + |tail|] == h[i..][|tail|] == rest[0];
    }
    DigitSpanExact(h, i, |tail|);
    assert h[i..i + |tail|] == h[i..][..|tail|];
  }

  /** A match begins with the letter 'b'. */
  lemma MatchStartsWithB(h: string, i: nat)
    ensures MatchesAt(h, i) ==> i < |h| && h[i] == 'b'
  {
    if MatchesAt(h, i) {
      assert h[i..i + |Prefix|][0] == h[i];
    }
  }

  /** A suffix range `bytes=-n` does not match (the start needs a digit), so the
      whole file is described: bytes 0 to size-1, length the file size. */
  lemma SuffixRangeServesWholeFile(n: nat, fileSize: nat)
    ensures Parse(Prefix + "-" + ShowNat(n)) == Parsed(ParsedRange(0, None))
    ensures var r := Resolve(Parse(Prefix + "-" + ShowNat(n)).groups, fileSize);
      r.byte1 == 0 && r.byte2 == fileSize - 1 && r.length == fileSize
  {
    var h := Prefix + "-" + ShowNat(n);
    var N := ShowNat(n);
    assert h[|Prefix|] == '-';
    assert DigitSpan(h, |Prefix|) == 0;
    assert !MatchesAt(h, 0);
    forall j | 1 <= j <= |h| ensures !MatchesAt(h, j) {
      MatchStartsWithB(h, j);
      if j < |h| {
        if j > |Prefix| {
          assert h[j] == N[j - |Prefix| - 1];
        }
        assert h[j] != 'b';
      }
    }
  }

  /** Nothing bounds the parsed positions: `bytes=10-5` yields a negative length,
      and an end past the file is passed through. */
  lemma NoBoundsCheck(fileSize: nat)
    ensures Parse(RangeText(10, Some(5))).Parsed?
    ensures Resolve(Parse(RangeText(10, Some(5))).groups, fileSize).length == -4
    ensures WithinDigitLimit(fileSize) ==> Parse(RangeText(0, Some(fileSize))).Parsed?
    ensures WithinDigitLimit(fileSize) ==>
      Resolve(Parse(RangeText(0, Some(fileSize))).groups, fileSize).byte2 == fileSize
  {
    ShowNatShort(10);
    ShowNatShort(5);
    ShowNatShort(0);
    ParseWellFormed(10, Some(5));
    ParseWellFormed(0, Some(fileSize));
  }

  /** An empty file without a range end gives byte2 = -1 and length -byte1. */
  lemma EmptyFileOpenRange(a: nat)
    ensures WithinDigitLimit(a) ==> Parse(RangeText(a, None)).Parsed?
    ensures WithinDigitLimit(a) ==>
      var r := Resolve(Parse(RangeText(a, None)).groups, 0);
      r.byte2 == -1 && r.length == -(a as int)
  {
    ParseWellFormed(a, None);
  }

  /** A number has no more digits than one more than itself, so every position
      below 4300 is within the digit limit. */
  lemma {:induction false} ShowNatShort(n: nat)
    ensures |ShowNat(n)| <= n + 1
    ensures n < MaxStrDigits ==> WithinDigitLimit(n)
    decreases n
  {
    if n >= 10 {
      ShowNatShort(n / 10);
    }
  }

  /** For a range inside the file the length is positive and fits in what is left of the file. */
  lemma InBoundsLength(p: ParsedRange, fileSize: nat)
    requires var r := Resolve(p, fileSize); r.byte1 <= r.byte2 < fileSize
    ensures var r := Resolve(p, fileSize); 0 < r.length <= fileSize - r.byte1
  {
  }
}

=== FILE: records.dfy ===
/** The video record as the server stores it, as it sends it, and as the
    client reads it. */
module Records {
  import opened Common

  /** A row of the `video` table. Key and IV are base64 text; `status` is
      one of processing, ready, error. */
  datatype VideoRow = VideoRow(
    id: int,
    filename: string,
    originalFilename: string,
    encryptionKey: string,
    iv: string,
    contentType: string,
    fileSize: int,
    uploadDate: string,
    status: string)

  /** A JSON value of a record field: a number or a string. */
  datatype JsonValue = JInt(i: int) | JString(s: string)

  /** A JSON object as the client receives it: field names to values. */
  type Json = map<string, JsonValue>

  /** The client's view of a video: the fields of its `Video` interface.
      `createdAt` is absent when the object has no `created_at` string. */
  datatype ClientVideo = ClientVideo(
    id: int,
    originalFilename: string,
    contentType: string,
    fileSize: int,
    createdAt: Option<string>,
    status: string)

  /** The keys `to_dict` writes. File name, key and IV are not among them. */
  const DictKeys: set<string> :=
    {"id", "original_filename", "content_type", "file_size", "upload_date", "status"}

  /** `to_dict`: the row's public fields under their column names, the upload
      date as its ISO text. */
  function ToDict(row: VideoRow): (j: Json)
    ensures j.Keys == DictKeys
    ensures j["id"] == JInt(row.id) && j["file_size"] == JInt(row.fileSize)
    ensures j["original_filename"] == JString(row.originalFilename)
    ensures j["content_type"] == JString(row.contentType)
    ensures j["upload_date"] == JString(row.uploadDate)
    ensures j["status"] == JString(row.status)
  {
    map["id" := JInt(row.id),
        "original_filename" := JString(row.originalFilename),
        "content_type" := JString(row.contentType),
        "file_size" := JInt(row.fileSize),
        "upload_date" := JString(row.uploadDate),
        "status" := JString(row.status)]
  }

  predicate HasInt(j: Json, k: string) {
    k in j && j[k].JInt?
  }

  predicate HasString(j: Json, k: string) {
    k in j && j[k].JString?
  }

  /** An object carrying every field the cards read, with its JSON type. */
  predicate Readable(j: Json) {
    && HasInt(j, "id") && HasString(j, "original_filename") && HasString(j, "content_type")
    && HasInt(j, "file_size") && HasString(j, "status")
  }

  /** Reading an object through the client's `Video` interface: each field by
      its interface name, `created_at` only when the object carries it. `None`
      stands for an object lacking a field the cards read. */
  function FromJson(j: Json): (v: Option<ClientVideo>)
    ensures v.Some? <==> Readable(j)
    ensures v.Some? ==> (v.value.createdAt.Some? <==> HasString(j, "created_at"))
    ensures v.Some? && HasString(j, "created_at") ==> v.value.createdAt == Some(j["created_at"].s)
    ensures v.Some? ==> v.value.id == j["id"].i && v.value.originalFilename == j["original_filename"].s
  {
    if !Readable(j) then None
    else
      Some(ClientVideo(j["id"].i, j["original_filename"].s, j["content_type"].s, j["file_size"].i,
                       if HasString(j, "created_at") then Some(j["created_at"].s) else None,
                       j["status"].s))
  }

  /** The server names the date `upload_date`, the client reads `created_at`:
      every row reaches the client with its other fields intact and no
      creation date. */
  lemma ClientNeverSeesCreationDate(row: VideoRow)
    ensures "created_at" !in ToDict(row) && "upload_date" in ToDict(row)
    ensures FromJson(ToDict(row))
         == Some(ClientVideo(row.id, row.originalFilename, row.contentType, row.fileSize, None, row.status))
  {
    var j := ToDict(row);
    assert "created_at" !in DictKeys;
    assert Readable(j);
  }

  /** Had the server sent `created_at`, the client would have read it. */
  lemma CreationDateReadWhenSent(row: VideoRow)
    ensures FromJson(ToDict(row)["created_at" := JString(row.uploadDate)]).value.createdAt == Some(row.uploadDate)
  {
    var j := ToDict(row)["created_at" := JString(row.uploadDate)];
    assert Readable(j) && HasString(j, "created_at");
  }

  /** `videos.find(v => v.id === id)`: the first record carrying `id`, if any. */
  function FindById(videos: seq<ClientVideo>, id: int): (r: Option<ClientVideo>)
    ensures r.None? <==> forall i :: 0 <= i < |videos| ==> videos[i].id != id
    ensures r.Some? ==> exists i :: 0 <= i < |videos| && videos[i] == r.value && r.value.id == id
                                    && forall j :: 0 <= j < i ==> videos[j].id != id
    decreases |videos|
  {
    if |videos| == 0 then None
    else if videos[0].id == id then Some(videos[0])
    else
      var r := FindById(videos[1..], id);
      if r.Some? then
        var k :| 0 <= k < |videos| - 1 && videos[1..][k] == r.value && r.value.id == id
                 && forall j :: 0 <= j < k ==> videos[1..][j].id != id;
        assert videos[k + 1] == r.value;
        assert forall j :: 0 <= j < k + 1 ==> videos[j].id != id by {
          forall j | 0 <= j < k + 1 ensures videos[j].id != id {
            if j > 0 { assert videos[j] == videos[1..][j - 1]; }
          }
        }
        r
      else
        assert forall i :: 1 <= i < |videos| ==> videos[i] == videos[1..][i - 1];
        r
  }
}

=== FILE: routes.dfy ===
/** The request handlers of the video API that carry logic of their own: the
    extension allow-list, the validation order of an upload and the record it
    stores, and the checks and headers of the streaming endpoint. Flask, the
    database, the filesystem, MIME sniffing and `secure_filename` appear as
    inputs; the streamed body itself is modelled in `Streaming`. */
module Routes {
  import opened Common
  import Records
  import RangeHeader

  const AllowedExtensions: set<string> := {"mp4", "avi", "mov", "mkv"}

  const NoVideoFieldMessage: string := "No video file provided"
  const NoSelectedFileMessage: string := "No selected file"
  const TypeNotAllowedMessage: string := "File type not allowed"
  const UploadedMessage: string := "Video uploaded successfully"
  const NotReadyMessage: string := "Video is not ready for streaming"
  const FileMissingMessage: string := "Video file not found"
  /** `str()` of the `NotFound` error that `get_or_404` raises for an unknown id. */
  const NotFoundText: string :=
    "404 Not Found: The requested URL was not found on the server. If you entered the URL manually please check your spelling and try again."
  const ReadyStatus: string := "ready"

  /** `str()` of the `ValueError` CPython 3.12 raises when `int()` is given a
      decimal string of `digits` digits, more than the limit allows. */
  function IntLimitMessage(digits: nat): string {
    "Exceeds the limit (4300 digits) for integer string conversion: value has " + ShowNat(digits)
      + " digits; use sys.set_int_max_str_digits() to increase the limit"
  }

  // ---------------------------------------------------------------------------
  // allowed_file
  // ---------------------------------------------------------------------------

  /** `k` is the position of a '.' with no '.' after it. */
  predicate IsLastDot(s: string, k: nat) {
    k < |s| && s[k] == '.' && forall j :: k < j < |s| ==> s[j] != '.'
  }

  /** Position of the last '.' of `s`, if any. */
  function LastDot(s: string): (r: Option<nat>)
    ensures r.Some? ==> IsLastDot(s, r.value)
    ensures r.None? <==> forall j :: 0 <= j < |s| ==> s[j] != '.'
    decreases |s|
  {
    if |s| == 0 then None
    else if s[|s| - 1] == '.' then Some(|s| - 1)
    else
      assert forall j :: 0 <= j < |s| - 1 ==> s[..|s| - 1][j] == s[j];
      LastDot(s[..|s| - 1])
  }

  /** A string has at most one last dot. */
  lemma LastDotUnique(s: string, k: nat, k': nat)
    requires IsLastDot(s, k) && IsLastDot(s, k')
    ensures k == k'
  {
  }

  /** An extension, lower-cased, is one of the known video extensions. */
  predicate ExtensionAllowed(ext: string) {
    Lower(ext) in AllowedExtensions
  }

  /** `allowed_file`: the text after the last '.', lower-cased, is a known video
      extension. An allowed name has a '.' followed by exactly three characters
      and no further '.'. */
  predicate AllowedFile(name: string)
    ensures AllowedFile(name) ==> |name| >= 4 && name[|name| - 4] == '.'
    ensures AllowedFile(name) ==> forall j :: |name| - 4 < j < |name| ==> name[j] != '.'
  {
    var d := LastDot(name);
    d.Some? && ExtensionAllowed(name[d.value + 1..])
  }

  /** Reference reading of `'.' in f and f.rsplit('.', 1)[1].lower() in {...}`:
      some '.' with no '.' after it ends a name part whose lower case is allowed. */
  ghost predicate SplitsAtAllowedExtension(name: string) {
    exists k: nat :: IsLastDot(name, k) && ExtensionAllowed(name[k + 1..])
  }

  lemma AllowedFileIff(name: string)
    ensures AllowedFile(name) <==> SplitsAtAllowedExtension(name)
  {
    var d := LastDot(name);
    if AllowedFile(name) {
      assert IsLastDot(name, d.value) && ExtensionAllowed(name[d.value + 1..]);
    }
    if SplitsAtAllowedExtension(name) {
      var k: nat :| IsLastDot(name, k) && ExtensionAllowed(name[k + 1..]);
      assert d.Some?;
      LastDotUnique(name, k, d.value);
    }
  }

  /** Case is ignored, and a name that is only an extension is allowed. */
  lemma AllowedFileExamples()
    ensures AllowedFile("movie.MP4")
    ensures AllowedFile(".mov")
  {
    ExtensionAfter("movie.MP4", 5, "MP4");
    assert Lower("MP4") == "mp4";
    ExtensionAfter(".mov", 0, "mov");
    assert Lower("mov") == "mov";
  }

  /** Only the text after the last dot counts. */
  lemma LastExtensionCounts()
    ensures AllowedFile("holiday.2024.mkv")
    ensures !AllowedFile("clip.mp4.exe")
  {
    ExtensionAfter("holiday.2024.mkv", 12, "mkv");
    assert Lower("mkv") == "mkv";
    ExtensionAfter("clip.mp4.exe", 8, "exe");
    assert Lower("exe") == "exe";
  }

  /** A bare extension without a dot and an empty extension are refused. */
  lemma RefusedFileExamples()
    ensures !AllowedFile("mp4")
    ensures !AllowedFile("clip.")
  {
    ExtensionAfter("clip.", 4, "");
    assert Lower("") == "";
    assert "mp4"[0] != '.' && "mp4"[1] != '.' && "mp4"[2] != '.';
  }

  /** The name is allowed exactly when the text after its last dot is. */
  lemma ExtensionAfter(s: string, k: nat, ext: string)
    requires IsLastDot(s, k) && s[k + 1..] == ext
    ensures AllowedFile(s) <==> ExtensionAllowed(ext)
  {
    var d := LastDot(s);
    assert d.Some?;
    LastDotUnique(s, k, d.value);
  }

  // ---------------------------------------------------------------------------
  // upload_video
  // ---------------------------------------------------------------------------

  /** What the handler depends on beyond the form: the sanitised name, the
      clock in whole seconds, the generated key and IV text, the size of the
      encrypted file, the sniffed MIME type, the id and date the database
      assigns, and the message of an exception raised while saving,
      encrypting or committing, if one is. */
  datatype UploadEnv = UploadEnv(
    sanitized: string,
    now: nat,
    key: string,
    iv: string,
    encryptedSize: nat,
    sniffedType: string,
    newId: int,
    uploadDate: string,
    failure: Option<string>)

  /** A JSON reply: the status code and the `message`, `error` and `video` fields. */
  datatype Reply = Reply(status: nat, message: Option<string>, error: Option<string>, video: Option<Records.Json>)

  /** The name the encrypted file is stored under. */
  function StoredName(now: nat, sanitized: string): (n: string)
    ensures |n| > |"encrypted_"| && n[..|"encrypted_"|] == "encrypted_"
  {
    "encrypted_" + ShowNat(now) + "_" + sanitized
  }

  /** The stored name determines the second and the name it was made from:
      two uploads collide exactly when both are equal. */
  lemma StoredNameInjective(t1: nat, n1: string, t2: nat, n2: string)
    ensures StoredName(t1, n1) == StoredName(t2, n2) <==> t1 == t2 && n1 == n2
  {
    if StoredName(t1, n1) == StoredName(t2, n2) {
      var a, b := ShowNat(t1), ShowNat(t2);
      assert (a + "_" + n1) == (b + "_" + n2) by {
        assert StoredName(t1, n1)[10..] == a + "_" + n1;
        assert StoredName(t2, n2)[10..] == b + "_" + n2;
      }
      DigitsThenSeparator(a, n1, b, n2);
      ShowNatInjective(t1, t2);
    }
  }

  /** A digit run followed by '_' is recovered from the joined text. */
  lemma DigitsThenSeparator(a: string, x: string, b: string, y: string)
    requires AllDigits(a) && AllDigits(b)
    requires a + "_" + x == b + "_" + y
    ensures a == b && x == y
  {
    var s := a + "_" + x;
    SeparatorIsFirst(a, x);
    SeparatorIsFirst(b, y);
    assert |a| == |b|;
    assert a == s[..|a|] == b;
    assert x == s[|a| + 1..] == y;
  }

  lemma SeparatorIsFirst(a: string, x: string)
    requires AllDigits(a)
    ensures (a + "_" + x)[|a|] == '_'
    ensures forall j :: 0 <= j < |a| ==> (a + "_" + x)[j] != '_'
  {
    forall j | 0 <= j < |a| ensures (a + "_" + x)[j] != '_' {
      assert (a + "_" + x)[j] == a[j];
    }
  }

  /** `upload_video`. The form maps field names to the name of the file sent
      under them. The three checks run in order before anything is saved;
      afterwards any exception gives 500 with its message; otherwise the row
      is stored as ready and returned with 201. The second component is the
      stored row. */
  function UploadVideo(files: map<string, string>, env: UploadEnv): (r: (Reply, Option<Records.VideoRow>))
    ensures "video" !in files ==> r == (Reply(400, None, Some(NoVideoFieldMessage), None), None)
    ensures "video" in files && files["video"] == "" ==>
      r == (Reply(400, None, Some(NoSelectedFileMessage), None), None)
    ensures "video" in files && files["video"] != "" && !AllowedFile(files["video"]) ==>
      r == (Reply(400, None, Some(TypeNotAllowedMessage), None), None)
    ensures "video" in files && files["video"] != "" && AllowedFile(files["video"]) && env.failure.Some? ==>
      r == (Reply(500, None, env.failure, None), None)
    ensures r.1.Some? <==> r.0.status == 201
    ensures r.1.Some? ==>
      && r.1.value.status == ReadyStatus
      && r.1.value.filename == StoredName(env.now, env.sanitized)
      && r.1.value.originalFilename == env.sanitized
      && r.1.value.fileSize == env.encryptedSize
      && r.1.value.encryptionKey == env.key && r.1.value.iv == env.iv
      && r.0.video == Some(Records.ToDict(r.1.value)) && r.0.error.None?
      && r.0.message == Some(UploadedMessage)
      && r.1.value.id == env.newId && r.1.value.uploadDate == env.uploadDate
      && r.1.value.contentType == env.sniffedType
  {
    if "video" !in files then (Reply(400, None, Some(NoVideoFieldMessage), None), None)
    else if files["video"] == "" then (Reply(400, None, Some(NoSelectedFileMessage), None), None)
    else if !AllowedFile(files["video"]) then (Reply(400, None, Some(TypeNotAllowedMessage), None), None)
    else if env.failure.Some? then (Reply(500, None, env.failure, None), None)
    else
      var row := Records.VideoRow(env.newId, StoredName(env.now, env.sanitized), env.sanitized,
                                  env.key, env.iv, env.sniffedType, env.encryptedSize,
                                  env.uploadDate, ReadyStatus);
      (Reply(201, Some(UploadedMessage), None, Some(Records.ToDict(row))), Some(row))
  }

  /** A row is stored exactly when the form passes all three checks and
      nothing raises; every rejection is a 400 that stores nothing. */
  lemma UploadStoresOnlyValidFiles(files: map<string, string>, env: UploadEnv)
    ensures UploadVideo(files, env).1.Some? <==>
      "video" in files && files["video"] != "" && AllowedFile(files["video"]) && env.failure.None?
    ensures UploadVideo(files, env).0.status in {201, 400, 500}
    ensures UploadVideo(files, env).0.status == 400 <==>
      !("video" in files && files["video"] != "" && AllowedFile(files["video"]))
  {
  }

  // ---------------------------------------------------------------------------
  // stream_video
  // ---------------------------------------------------------------------------

  /** What the body generator is asked to send: nothing (an error reply), the
      bytes of a range, or the whole file. */
  datatype Body = NoBody | RangeBody(byte1: nat, length: int) | FullBody

  datatype StreamReply = StreamReply(
    status: nat,
    error: Option<string>,
    contentType: Option<string>,
    contentRange: Option<string>,
    contentLength: Option<string>,
    body: Body)

  function ErrorReply(status: nat, message: string): StreamReply {
    StreamReply(status, Some(message), None, None, None, NoBody)
  }

  /** `stream_video` given the row looked up for the id (if any), whether its
      file exists, the file's size and the `Range` header. An unknown id makes
      `get_or_404` raise inside the handler's catch-all, so it is answered with
      500 and the text of the not-found error; so is a range position that
      `int()` refuses, with the text of that error. */
  function StreamVideo(row: Option<Records.VideoRow>, fileExists: bool, fileSize: nat, range: Option<string>)
    : StreamReply
  {
    if row.None? then ErrorReply(500, NotFoundText)
    else if row.value.status != ReadyStatus then ErrorReply(400, NotReadyMessage)
    else if !fileExists then ErrorReply(404, FileMissingMessage)
    else if Truthy(range) then
      match RangeHeader.Parse(range.value)
      case TooManyDigits(n) => ErrorReply(500, IntLimitMessage(n))
      case Parsed(p) => PartialContent(row.value.contentType, RangeHeader.Resolve(p, fileSize), fileSize)
    else
      StreamReply(200, None, Some(row.value.contentType), None, Some(ShowNat(fileSize)), FullBody)
  }

  /** The 206 reply for a resolved range: `Content-Range` names the two ends
      and the file size, `Content-Length` the declared length. */
  function PartialContent(contentType: string, res: RangeHeader.Resolved, fileSize: nat): StreamReply {
    StreamReply(206, None, Some(contentType), Some(RangeHeader.ContentRange(res.byte1, res.byte2, fileSize)),
                Some(ShowInt(res.length)), RangeBody(res.byte1, res.length))
  }

  /** Statuses of the endpoint: a body is sent exactly with 200 or 206, 416 is
      never used, and an unknown id is a server error rather than 404, as is a
      range position too long for `int()`. Each check is made in order: the
      record, then its status, then its file, then the range. */
  lemma StreamStatuses(row: Option<Records.VideoRow>, fileExists: bool, fileSize: nat, range: Option<string>)
    ensures var r := StreamVideo(row, fileExists, fileSize, range);
      && r.status in {200, 206, 400, 404, 500}
      && (r.body.NoBody? <==> r.status != 200 && r.status != 206)
      && (r.body.NoBody? <==> r.error.Some?)
      && (r.status == 500 <==> row.None? || (row.value.status == ReadyStatus && fileExists && Truthy(range)
                                            && RangeHeader.Parse(range.value).TooManyDigits?))
      && (r.status == 400 <==> row.Some? && row.value.status != ReadyStatus)
      && (r.status == 404 <==> row.Some? && row.value.status == ReadyStatus && !fileExists)
      && (r.status == 206 <==> row.Some? && row.value.status == ReadyStatus && fileExists && Truthy(range)
                               && RangeHeader.Parse(range.value).Parsed?)
      && (r.status == 200 <==> row.Some? && row.value.status == ReadyStatus && fileExists && !Truthy(range))
  {
  }

  /** The error replies carry the handler's messages; a reply with a body
      names the stored content type. */
  lemma StreamMessages(row: Option<Records.VideoRow>, fileExists: bool, fileSize: nat, range: Option<string>)
    ensures var r := StreamVideo(row, fileExists, fileSize, range);
      && (r.status == 500 && row.None? ==> r.error == Some(NotFoundText))
      && (r.status == 500 && row.Some? ==>
            range.Some? && r.error == Some(IntLimitMessage(RangeHeader.Parse(range.value).digits)))
      && (r.status == 400 ==> r.error == Some(NotReadyMessage))
      && (r.status == 404 ==> r.error == Some(FileMissingMessage))
      && (!r.body.NoBody? ==> row.Some? && r.contentType == Some(row.value.contentType))
  {
    if row.Some? && row.value.status == ReadyStatus && fileExists && Truthy(range) {
      var p := RangeHeader.Parse(range.value);
      if p.TooManyDigits? {
        assert StreamVideo(row, fileExists, fileSize, range) == ErrorReply(500, IntLimitMessage(p.digits));
      } else {
        var res := RangeHeader.Resolve(p.groups, fileSize);
        assert StreamVideo(row, fileExists, fileSize, range) == PartialContent(row.value.contentType, res, fileSize);
      }
    }
  }

  /** Without a `Range` header the whole file is announced: 200, its size as
      `Content-Length`, no `Content-Range`. An empty header counts as none. */
  lemma FullReplyHeaders(row: Records.VideoRow, fileSize: nat, range: Option<string>)
    requires row.status == ReadyStatus && !Truthy(range)
    ensures StreamVideo(Some(row), true, fileSize, range)
         == StreamReply(200, None, Some(row.contentType), None, Some(ShowNat(fileSize)), FullBody)
    ensures StreamVideo(Some(row), true, fileSize, Some("")) == StreamVideo(Some(row), true, fileSize, None)
  {
  }

  /** Ranged replies declare exactly the range arithmetic: the declared
      length counts both ends, unchecked against the file. A position of more
      than 4300 digits is a server error instead, the start checked first. */
  lemma RangeReplyHeaders(row: Records.VideoRow, fileSize: nat, a: nat, b: nat)
    requires row.status == ReadyStatus
    ensures RangeHeader.WithinDigitLimit(a) && RangeHeader.WithinDigitLimit(b) ==>
      StreamVideo(Some(row), true, fileSize, Some(RangeHeader.RangeText(a, Some(b))))
         == StreamReply(206, None, Some(row.contentType), Some(RangeHeader.ContentRange(a, b, fileSize)),
                        Some(ShowInt(b - a + 1)), RangeBody(a, b - a + 1))
    ensures !RangeHeader.WithinDigitLimit(a) ==>
      StreamVideo(Some(row), true, fileSize, Some(RangeHeader.RangeText(a, Some(b))))
         == ErrorReply(500, IntLimitMessage(|ShowNat(a)|))
    ensures RangeHeader.WithinDigitLimit(a) && !RangeHeader.WithinDigitLimit(b) ==>
      StreamVideo(Some(row), true, fileSize, Some(RangeHeader.RangeText(a, Some(b))))
         == ErrorReply(500, IntLimitMessage(|ShowNat(b)|))
  {
    var h := RangeHeader.RangeText(a, Some(b));
    RangeHeader.ParseWellFormed(a, Some(b));
    if RangeHeader.WithinDigitLimit(a) && RangeHeader.WithinDigitLimit(b) {
      BoundedReply(row, fileSize, h, a, b);
    } else {
      OverlongReply(row, fileSize, h);
    }
  }

  /** An open-ended range stands for the rest of the file, up to its last byte,
      unless its start has more than 4300 digits. */
  lemma OpenRangeReplyHeaders(row: Records.VideoRow, fileSize: nat, a: nat)
    requires row.status == ReadyStatus
    ensures RangeHeader.WithinDigitLimit(a) ==>
      StreamVideo(Some(row), true, fileSize, Some(RangeHeader.RangeText(a, None)))
         == StreamReply(206, None, Some(row.contentType), Some(RangeHeader.ContentRange(a, fileSize - 1, fileSize)),
                        Some(ShowInt(fileSize - a)), RangeBody(a, fileSize - a))
    ensures !RangeHeader.WithinDigitLimit(a) ==>
      StreamVideo(Some(row), true, fileSize, Some(RangeHeader.RangeText(a, None)))
         == ErrorReply(500, IntLimitMessage(|ShowNat(a)|))
  {
    var h := RangeHeader.RangeText(a, None);
    RangeHeader.ParseWellFormed(a, None);
    if RangeHeader.WithinDigitLimit(a) {
      OpenReply(row, fileSize, h, a);
    } else {
      OverlongReply(row, fileSize, h);
    }
  }

  /** `Range: bytes=` followed by more than 4300 digits and '-' is answered
      with 500, whatever the digits' value: leading zeros count. */
  lemma OverlongRangeIsServerError(row: Records.VideoRow, fileSize: nat, digits: string)
    requires row.status == ReadyStatus
    requires AllDigits(digits) && |digits| > RangeHeader.MaxStrDigits
    ensures StreamVideo(Some(row), true, fileSize, Some(RangeHeader.Prefix + digits + "-"))
         == ErrorReply(500, IntLimitMessage(|digits|))
  {
    RangeHeader.OverlongStartRefused(digits);
    OverlongReply(row, fileSize, RangeHeader.Prefix + digits + "-");
  }

  /** A `Range` header whose position `int()` refuses is answered with 500 and
      the conversion error's text, before any body is prepared. */
  lemma OverlongReply(row: Records.VideoRow, fileSize: nat, h: string)
    requires row.status == ReadyStatus && h != ""
    requires RangeHeader.Parse(h).TooManyDigits?
    ensures StreamVideo(Some(row), true, fileSize, Some(h))
         == ErrorReply(500, IntLimitMessage(RangeHeader.Parse(h).digits))
  {
    assert Truthy(Some(h));
  }

  lemma BoundedReply(row: Records.VideoRow, fileSize: nat, h: string, a: nat, b: nat)
    requires row.status == ReadyStatus && h != ""
    requires RangeHeader.Parse(h) == RangeHeader.Parsed(RangeHeader.ParsedRange(a, Some(b)))
    ensures StreamVideo(Some(row), true, fileSize, Some(h))
         == StreamReply(206, None, Some(row.contentType), Some(RangeHeader.ContentRange(a, b, fileSize)),
                        Some(ShowInt(b - a + 1)), RangeBody(a, b - a + 1))
  {
    assert Truthy(Some(h));
    var res := RangeHeader.Resolve(RangeHeader.ParsedRange(a, Some(b)), fileSize);
    assert StreamVideo(Some(row), true, fileSize, Some(h)) == PartialContent(row.contentType, res, fileSize);
    PartialContentIs(row.contentType, res, fileSize, a, b, b - a + 1);
  }

  lemma OpenReply(row: Records.VideoRow, fileSize: nat, h: string, a: nat)
    requires row.status == ReadyStatus && h != ""
    requires RangeHeader.Parse(h) == RangeHeader.Parsed(RangeHeader.ParsedRange(a, None))
    ensures StreamVideo(Some(row), true, fileSize, Some(h))
         == StreamReply(206, None, Some(row.contentType), Some(RangeHeader.ContentRange(a, fileSize - 1, fileSize)),
                        Some(ShowInt(fileSize - a)), RangeBody(a, fileSize - a))
  {
    assert Truthy(Some(h));
    var res := RangeHeader.Resolve(RangeHeader.ParsedRange(a, None), fileSize);
    assert StreamVideo(Some(row), true, fileSize, Some(h)) == PartialContent(row.contentType, res, fileSize);
    assert res.byte1 == a && res.byte2 == fileSize - 1 && res.length == fileSize - a;
    PartialContentIs(row.contentType, res, fileSize, a, fileSize - 1, fileSize - a);
  }

  lemma PartialContentIs(contentType: string, res: RangeHeader.Resolved, fileSize: nat, a: nat, last: int, len: int)
    requires res.byte1 == a && res.byte2 == last && res.length == len
    ensures PartialContent(contentType, res, fileSize)
         == StreamReply(206, None, Some(contentType), Some(RangeHeader.ContentRange(a, last, fileSize)),
                        Some(ShowInt(len)), RangeBody(a, len))
  {
  }
}

=== FILE: shell.dfy ===
/** The application shell: the mobile drawer flag, the selected video whose
    player is open, the refresh trigger handed to the list, and which of the
    list and upload views is shown. The theme is presentation only. */
module Shell {
  import opened Common

  datatype Pane = ListPane | UploadPane

  datatype AppState = AppState(
    mobileOpen: bool,
    selectedVideo: Option<int>,
    refreshTrigger: int,
    currentView: Pane)

  datatype AppEvent =
    | DrawerToggled
    /** `onUploadSuccess` called by the upload form */
    | UploadSucceeded
    /** a card of the list was clicked */
    | VideoSelected(id: int)
    /** the player's `onClose` */
    | PlayerClosed
    /** a navigation entry of the drawer */
    | Navigated(pane: Pane)

  /** The main area: the list with the current trigger, or the upload form. */
  datatype MainView = VideoListView(refreshTrigger: int) | VideoUploadView

  /** What the shell renders: the player for a video id, if any, and the main area. */
  datatype Screen = Screen(player: Option<int>, main: MainView)

  const Initial: AppState := AppState(false, None, 0, ListPane)

  function Step(s: AppState, e: AppEvent): (t: AppState)
    ensures e.DrawerToggled? ==> t == s.(mobileOpen := !s.mobileOpen)
    ensures e.UploadSucceeded? ==>
      t == s.(refreshTrigger := s.refreshTrigger + 1, currentView := ListPane)
    ensures e.VideoSelected? ==> t == s.(selectedVideo := Some(e.id))
    ensures e.PlayerClosed? ==> t == s.(selectedVideo := None)
    ensures e.Navigated? ==> t == s.(currentView := e.pane)
    ensures !e.UploadSucceeded? ==> t.refreshTrigger == s.refreshTrigger
  {
    match e
    case DrawerToggled => s.(mobileOpen := !s.mobileOpen)
    case UploadSucceeded => s.(refreshTrigger := s.refreshTrigger + 1, currentView := ListPane)
    case VideoSelected(id) => s.(selectedVideo := Some(id))
    case PlayerClosed => s.(selectedVideo := None)
    case Navigated(p) => s.(currentView := p)
  }

  function Run(s: AppState, events: seq<AppEvent>): AppState
    decreases |events|
  {
    if |events| == 0 then s else Run(Step(s, events[0]), events[1..])
  }

  function UploadSuccesses(events: seq<AppEvent>): nat
    decreases |events|
  {
    if |events| == 0 then 0
    else (if events[0].UploadSucceeded? then 1 else 0) + UploadSuccesses(events[1..])
  }

  /** The refresh trigger counts upload successes: each adds exactly one and
      nothing else changes it, so it never decreases. */
  lemma {:induction false} TriggerCountsUploads(s: AppState, events: seq<AppEvent>)
    ensures Run(s, events).refreshTrigger == s.refreshTrigger + UploadSuccesses(events)
    ensures Run(s, events).refreshTrigger >= s.refreshTrigger
    decreases |events|
  {
    if |events| > 0 {
      TriggerCountsUploads(Step(s, events[0]), events[1..]);
    }
  }

  /** The player is rendered only for a truthy id: an id of 0 never opens one. */
  function Render(s: AppState): (v: Screen)
    ensures v.player.Some? <==> s.selectedVideo.Some? && s.selectedVideo.value != 0
    ensures v.player.Some? ==> v.player == s.selectedVideo
    ensures v.main.VideoListView? <==> s.currentView == ListPane
    ensures v.main.VideoListView? ==> v.main.refreshTrigger == s.refreshTrigger
  {
    var player := if s.selectedVideo.Some? && s.selectedVideo.value != 0 then s.selectedVideo else None;
    var main := if s.currentView == ListPane then VideoListView(s.refreshTrigger) else VideoUploadView;
    Screen(player, main)
  }

  /** After an upload success the main area switches to the list, which is
      handed a trigger one greater than before; the player is left as it was. */
  lemma UploadSuccessShowsFreshList(s: AppState)
    ensures var v := Render(Step(s, UploadSucceeded));
      v.main == VideoListView(s.refreshTrigger + 1) && v.player == Render(s).player
  {
  }

  /** Selecting a video and closing its player returns to no player, whatever
      was open before. */
  lemma SelectThenClose(s: AppState, id: int)
    ensures Render(Step(s, VideoSelected(id))).player == (if id != 0 then Some(id) else None)
    ensures Render(Step(Step(s, VideoSelected(id)), PlayerClosed)).player.None?
    ensures Step(Step(s, VideoSelected(id)), PlayerClosed) == s.(selectedVideo := None)
  {
  }

  /** The selected video after a run of events: the id of the last selection
      or none after the last close, else what it was. */
  function LastSelection(init: Option<int>, events: seq<AppEvent>): Option<int>
    decreases |events|
  {
    if |events| == 0 then init
    else
      var e := events[|events| - 1];
      if e.VideoSelected? then Some(e.id)
      else if e.PlayerClosed? then None
      else LastSelection(init, events[..|events| - 1])
  }

  /** The pane shown after a run of events: the last one navigated to, or the
      list after an upload success, else what it was. */
  function LastPane(init: Pane, events: seq<AppEvent>): Pane
    decreases |events|
  {
    if |events| == 0 then init
    else
      var e := events[|events| - 1];
      if e.Navigated? then e.pane
      else if e.UploadSucceeded? then ListPane
      else LastPane(init, events[..|events| - 1])
  }

  lemma {:induction false} RunSnoc(s: AppState, events: seq<AppEvent>, e: AppEvent)
    ensures Run(s, events + [e]) == Step(Run(s, events), e)
    decreases |events|
  {
    if |events| == 0 {
      assert events + [e] == [e] && [e][1..] == [];
    } else {
      assert (events + [e])[1..] == events[1..] + [e];
      RunSnoc(Step(s, events[0]), events[1..], e);
    }
  }

  /** After any run of events, the selected video and the pane are those the
      last relevant event chose. */
  lemma {:induction false} RunFollowsLastChoice(s: AppState, events: seq<AppEvent>)
    ensures Run(s, events).selectedVideo == LastSelection(s.selectedVideo, events)
    ensures Run(s, events).currentView == LastPane(s.currentView, events)
    decreases |events|
  {
    if |events| > 0 {
      var n := |events| - 1;
      assert events == events[..n] + [events[n]];
      RunSnoc(s, events[..n], events[n]);
      RunFollowsLastChoice(s, events[..n]);
    }
  }

  /** What is on screen after any run of events: the player for the last
      selected video unless it was closed since or its id is 0, and the list,
      with the trigger counting the upload successes, or the upload form,
      as the last navigation or upload success chose. */
  lemma ScreenAfterRun(s: AppState, events: seq<AppEvent>)
    ensures var v := Render(Run(s, events));
      var sel := LastSelection(s.selectedVideo, events);
      && v.player == (if sel.Some? && sel.value != 0 then sel else None)
      && v.main == (if LastPane(s.currentView, events) == ListPane
                    then VideoListView(s.refreshTrigger + UploadSuccesses(events))
                    else VideoUploadView)
  {
    RunFollowsLastChoice(s, events);
    TriggerCountsUploads(s, events);
  }
}

=== FILE: streaming.dfy ===
/** The two body generators of the streaming endpoint, over the encrypted file
    as a byte sequence: the range loop, which reads at most the declared
    length from the start position, and the full-file loop, which reads the
    whole file in numbered chunks. Each chunk read is handed to the chunk
    decryption; a decryption that raises ends the body, a decryption that
    gives nothing is skipped, and any other result is sent. */
module Streaming {
  import opened Common
  import opened Encryption

  type Cipher = (seq<byte>, seq<byte>, seq<byte>) -> seq<byte>

  /** Read size of both loops: 1 MiB. */
  const ChunkSize: nat := 1048576

  /** Which chunk number each read is decrypted with: the same number for
      every chunk (the range loop passes `byte1 // chunk_size` each time), or
      0, 1, 2, ... in order (the full-file loop). */
  datatype Numbering = Fixed(n: nat) | Consecutive

  function NumberOf(k: Numbering, i: nat): nat {
    match k
    case Fixed(n) => n
    case Consecutive => i
  }

  /** `if decrypted_chunk: yield decrypted_chunk`: only non-empty plaintext is sent. */
  function Emitted(d: Decrypted): (r: seq<seq<byte>>)
    ensures |r| <= 1
    ensures |r| == 1 <==> d.Plain? && |d.bytes| > 0
    ensures |r| == 1 ==> r[0] == d.bytes
  {
    if d.Plain? && |d.bytes| > 0 then [d.bytes] else []
  }

  /** What the generator sends for the chunks it read, in order. */
  function Yielded(chunks: seq<seq<byte>>, k: Numbering, key: seq<byte>, iv: seq<byte>, aes: Cipher)
    : seq<seq<byte>>
    decreases |chunks|
  {
    if |chunks| == 0 then []
    else
      var i := |chunks| - 1;
      Yielded(chunks[..i], k, key, iv, aes) + Emitted(DecryptChunk(chunks[i], key, iv, NumberOf(k, i), aes))
  }

  lemma YieldedAppend(chunks: seq<seq<byte>>, c: seq<byte>, k: Numbering, key: seq<byte>, iv: seq<byte>, aes: Cipher)
    ensures Yielded(chunks + [c], k, key, iv, aes)
         == Yielded(chunks, k, key, iv, aes) + Emitted(DecryptChunk(c, key, iv, NumberOf(k, |chunks|), aes))
  {
    assert (chunks + [c])[..|chunks|] == chunks;
  }

  /** `file.seek(pos); file.read(size)`: up to `size` bytes from `pos`, none past the end. */
  function Read(file: seq<byte>, pos: nat, size: nat): (r: seq<byte>)
    ensures |r| <= size
    ensures |r| > 0 <==> pos < |file| && size > 0
    ensures pos <= |file| ==> r == file[pos..Min(pos + size, |file|)]
  {
    if pos >= |file| then [] else file[pos..Min(pos + size, |file|)]
  }

  /** The bytes a range loop that is not cut short reads: from `byte1` on, at
      most `length` of them, none past the end of the file. */
  function Served(file: seq<byte>, byte1: nat, length: int): (r: seq<byte>)
    ensures |r| <= (if length > 0 then length else 0)
  {
    if length <= 0 || byte1 >= |file| then [] else file[byte1..Min(byte1 + length, |file|)]
  }

  /** The declared `Content-Length` is the number of bytes read exactly when
      the range is non-empty and ends inside the file; a range running past
      the end declares more than is read. */
  lemma DeclaredLengthVsServed(file: seq<byte>, byte1: nat, length: int)
    ensures length >= 0 && byte1 + length <= |file| ==> |Served(file, byte1, length)| == length
    ensures length > 0 && byte1 + length > |file| ==> |Served(file, byte1, length)| < length
    ensures Served(file, byte1, length) == file[Min(byte1, |file|)..Min(byte1, |file|) + |Served(file, byte1, length)|]
  {
  }

  /** `generate_range`. Returns the chunks read and decrypted without error,
      what was sent, and whether the loop was ended by a decryption that
      raised. Every chunk is decrypted under the same number, so the first
      decryption either raises or none does. */
  method GenerateRange(file: seq<byte>, byte1: nat, length: int,
                       key: seq<byte>, iv: seq<byte>, aes: Cipher)
    returns (chunksRead: seq<seq<byte>>, out: seq<seq<byte>>, stopped: bool)
    ensures forall i :: 0 <= i < |chunksRead| ==> 0 < |chunksRead[i]| <= ChunkSize
    ensures |Flatten(chunksRead)| <= (if length > 0 then length else 0)
    ensures !stopped ==> Flatten(chunksRead) == Served(file, byte1, length)
    ensures stopped <==> |Served(file, byte1, length)| > 0 && SetupFails(key, iv, byte1 / ChunkSize)
    ensures stopped ==> chunksRead == [] && out == []
    ensures out == Yielded(chunksRead, Fixed(byte1 / ChunkSize), key, iv, aes)
    ensures 0 < length <= ChunkSize && byte1 + length <= |file| && length % BlockSize != 0 ==> out == []
  {
    var n := byte1 / ChunkSize;
    var pos: nat := byte1;
    var remaining := length;
    chunksRead, out, stopped := [], [], false;
    RangeLoopInit(file, byte1, length, n, key, iv, aes);
    while remaining > 0
      invariant RangeLoop(file, byte1, length, pos, remaining, chunksRead, out, n, key, iv, aes)
      decreases remaining
    {
      var chunk := Read(file, pos, Min(ChunkSize, remaining));
      if |chunk| == 0 {
        break;
      }
      var d := DecryptChunk(chunk, key, iv, n, aes);
      if d.Raised? {
        stopped := true;
        break;
      }
      var chunksRead', out', pos': nat, remaining' :=
        chunksRead + [chunk], out + Emitted(d), pos + |chunk|, remaining - |chunk|;
      RangeRound(file, byte1, length, pos, remaining, chunksRead, out, n, key, iv, aes, chunk,
                 pos', remaining', chunksRead', out');
      chunksRead, out, pos, remaining := chunksRead', out', pos', remaining';
    }
    RangePost(file, byte1, length, pos, remaining, chunksRead, out, n, key, iv, aes, stopped);
    RangeSent(file, byte1, length, chunksRead, Fixed(n), key, iv, aes, stopped);
  }

  /** The range loop's state together with what it has sent so far. */
  ghost predicate RangeLoop(file: seq<byte>, byte1: nat, length: int, pos: nat, remaining: int,
                            chunksRead: seq<seq<byte>>, out: seq<seq<byte>>,
                            n: nat, key: seq<byte>, iv: seq<byte>, aes: Cipher) {
    && RangeInv(file, byte1, length, pos, remaining, chunksRead)
    && (|chunksRead| > 0 ==> !SetupFails(key, iv, n))
    && out == Yielded(chunksRead, Fixed(n), key, iv, aes)
  }

  lemma RangeLoopInit(file: seq<byte>, byte1: nat, length: int, n: nat, key: seq<byte>, iv: seq<byte>, aes: Cipher)
    ensures RangeLoop(file, byte1, length, byte1, length, [], [], n, key, iv, aes)
  {
    RangeInvInit(file, byte1, length);
  }

  /** One round that reads a non-empty chunk and decrypts it without error. */
  lemma RangeRound(file: seq<byte>, byte1: nat, length: int, pos: nat, remaining: int,
                   chunksRead: seq<seq<byte>>, out: seq<seq<byte>>,
                   n: nat, key: seq<byte>, iv: seq<byte>, aes: Cipher, chunk: seq<byte>,
                   pos': nat, remaining': int, chunksRead': seq<seq<byte>>, out': seq<seq<byte>>)
    requires RangeLoop(file, byte1, length, pos, remaining, chunksRead, out, n, key, iv, aes)
    requires remaining > 0 && chunk == Read(file, pos, Min(ChunkSize, remaining)) && |chunk| > 0
    requires !SetupFails(key, iv, n)
    requires pos' == pos + |chunk| && remaining' == remaining - |chunk| && chunksRead' == chunksRead + [chunk]
    requires out' == out + Emitted(DecryptChunk(chunk, key, iv, n, aes))
    ensures RangeLoop(file, byte1, length, pos', remaining', chunksRead', out', n, key, iv, aes)
  {
    YieldedAppend(chunksRead, chunk, Fixed(n), key, iv, aes);
    RangeInvStep(file, byte1, length, pos, remaining, chunksRead, chunk);
  }

  /** The state of the range loop after reading `chunksRead`: the file
      position and the bytes still wanted account for what was read, which is
      a contiguous run of the file from `byte1`, in reads of at most one
      chunk; a range that fits in one read and in the file is read at once. */
  ghost predicate RangeInv(file: seq<byte>, byte1: nat, length: int, pos: nat, remaining: int,
                           chunksRead: seq<seq<byte>>) {
    && pos == byte1 + |Flatten(chunksRead)|
    && remaining == length - |Flatten(chunksRead)|
    && (length > 0 ==> remaining >= 0)
    && (length <= 0 ==> chunksRead == [])
    && (|chunksRead| > 0 ==> pos <= |file| && Flatten(chunksRead) == file[byte1..pos])
    && (forall i :: 0 <= i < |chunksRead| ==> 0 < |chunksRead[i]| <= ChunkSize)
    && (0 < length <= ChunkSize && byte1 + length <= |file| && |chunksRead| > 0 ==>
          chunksRead == [file[byte1..byte1 + length]])
  }

  lemma RangeInvInit(file: seq<byte>, byte1: nat, length: int)
    ensures RangeInv(file, byte1, length, byte1, length, [])
  {
    var none: seq<seq<byte>> := [];
    assert Flatten(none) == [];
  }

  /** One non-empty read keeps the loop state. */
  lemma RangeInvStep(file: seq<byte>, byte1: nat, length: int, pos: nat, remaining: int,
                     chunksRead: seq<seq<byte>>, chunk: seq<byte>)
    requires RangeInv(file, byte1, length, pos, remaining, chunksRead)
    requires remaining > 0 && chunk == Read(file, pos, Min(ChunkSize, remaining)) && |chunk| > 0
    ensures RangeInv(file, byte1, length, pos + |chunk|, remaining - |chunk|, chunksRead + [chunk])
  {
    FlattenAppend(chunksRead, chunk);
    if 0 < length <= ChunkSize && byte1 + length <= |file| {
      SingleReadRange(file, byte1, length, pos, remaining, chunksRead, chunk);
    }
    RangeStep(file, byte1, pos, chunksRead, chunk);
  }

  /** A range that fits in one read and in the file is read in a single chunk. */
  lemma SingleReadRange(file: seq<byte>, byte1: nat, length: int, pos: nat, remaining: int,
                        chunksRead: seq<seq<byte>>, chunk: seq<byte>)
    requires pos == byte1 + |Flatten(chunksRead)|
    requires remaining == length - |Flatten(chunksRead)| && remaining > 0
    requires 0 < length <= ChunkSize && byte1 + length <= |file|
    requires |chunksRead| > 0 ==> chunksRead == [file[byte1..byte1 + length]]
    requires chunk == Read(file, pos, Min(ChunkSize, remaining))
    ensures chunksRead == [] && chunk == file[byte1..byte1 + length]
  {
    var w := file[byte1..byte1 + length];
    var none: seq<seq<byte>> := [];
    FlattenAppend(none, w);
    assert none + [w] == [w];
  }

  /** One read of the range loop extends the bytes read so far contiguously. */
  lemma RangeStep(file: seq<byte>, byte1: nat, pos: nat, chunksRead: seq<seq<byte>>, chunk: seq<byte>)
    requires pos == byte1 + |Flatten(chunksRead)| && pos < |file|
    requires |chunksRead| > 0 ==> Flatten(chunksRead) == file[byte1..pos]
    requires pos + |chunk| <= |file| && chunk == file[pos..pos + |chunk|]
    ensures Flatten(chunksRead + [chunk]) == file[byte1..pos + |chunk|]
  {
    FlattenAppend(chunksRead, chunk);
    if |chunksRead| == 0 {
      assert Flatten(chunksRead) == [];
    }
    assert file[byte1..pos] + file[pos..pos + |chunk|] == file[byte1..pos + |chunk|];
  }

  /** How the range loop ends: when it was not stopped it has read exactly the
      served bytes, either the whole length or up to the end of the file; it
      is stopped exactly when there is something to serve and the cipher
      cannot be set up for the range's chunk number. */
  lemma RangePost(file: seq<byte>, byte1: nat, length: int, pos: nat, remaining: int,
                  chunksRead: seq<seq<byte>>, out: seq<seq<byte>>,
                  n: nat, key: seq<byte>, iv: seq<byte>, aes: Cipher, stopped: bool)
    requires RangeLoop(file, byte1, length, pos, remaining, chunksRead, out, n, key, iv, aes)
    requires stopped ==> remaining > 0 && pos < |file| && SetupFails(key, iv, n)
    requires !stopped && remaining > 0 ==> pos >= |file|
    ensures forall i :: 0 <= i < |chunksRead| ==> 0 < |chunksRead[i]| <= ChunkSize
    ensures |Flatten(chunksRead)| <= (if length > 0 then length else 0)
    ensures !stopped ==> Flatten(chunksRead) == Served(file, byte1, length)
    ensures stopped <==> |Served(file, byte1, length)| > 0 && SetupFails(key, iv, n)
    ensures stopped ==> chunksRead == []
    ensures !stopped && 0 < length <= ChunkSize && byte1 + length <= |file| ==>
      chunksRead == [file[byte1..byte1 + length]]
    ensures out == Yielded(chunksRead, Fixed(n), key, iv, aes)
  {
    if |chunksRead| == 0 {
      assert Flatten(chunksRead) == [];
    }
  }

  /** Nothing is sent when the loop is stopped, nor for a range that is read
      in one chunk whose length is not a multiple of the block size. */
  lemma RangeSent(file: seq<byte>, byte1: nat, length: int, chunksRead: seq<seq<byte>>,
                  k: Numbering, key: seq<byte>, iv: seq<byte>, aes: Cipher, stopped: bool)
    requires stopped ==> chunksRead == []
    requires !stopped && 0 < length <= ChunkSize && byte1 + length <= |file| ==>
      chunksRead == [file[byte1..byte1 + length]]
    ensures stopped ==> Yielded(chunksRead, k, key, iv, aes) == []
    ensures 0 < length <= ChunkSize && byte1 + length <= |file| && length % BlockSize != 0 ==>
      Yielded(chunksRead, k, key, iv, aes) == []
  {
    if !stopped && 0 < length <= ChunkSize && byte1 + length <= |file| && length % BlockSize != 0 {
      UnalignedChunkSendsNothing(file[byte1..byte1 + length], k, key, iv, aes);
    }
  }

  /** `generate_full`. Returns the chunks read and decrypted without error,
      what was sent, and whether the loop was ended by a decryption that
      raised. Chunk `i` is decrypted under number `i`. */
  method GenerateFull(file: seq<byte>, key: seq<byte>, iv: seq<byte>, aes: Cipher)
    returns (chunksRead: seq<seq<byte>>, out: seq<seq<byte>>, stopped: bool)
    ensures forall i :: 0 <= i < |chunksRead| ==>
      (|chunksRead[i]| == ChunkSize || (i == |chunksRead| - 1 && 0 < |chunksRead[i]| < ChunkSize))
    ensures |Flatten(chunksRead)| <= |file| && Flatten(chunksRead) == file[..|Flatten(chunksRead)|]
    ensures !stopped ==> Flatten(chunksRead) == file
    ensures stopped ==> |Flatten(chunksRead)| < |file| && SetupFails(key, iv, |chunksRead|)
    ensures forall i :: 0 <= i < |chunksRead| ==> !SetupFails(key, iv, i)
    ensures stopped && |chunksRead| > 0 ==> |chunksRead| >= Pow256(16)
    ensures out == Yielded(chunksRead, Consecutive, key, iv, aes)
  {
    var pos: nat := 0;
    var number: nat := 0;
    chunksRead, out, stopped := [], [], false;
    FullInvInit(file);
    while true
      invariant FullInv(file, pos, chunksRead)
      invariant number == |chunksRead|
      invariant NoneFail(|chunksRead|, key, iv)
      invariant out == Yielded(chunksRead, Consecutive, key, iv, aes)
      decreases |file| - pos
    {
      var chunk := Read(file, pos, ChunkSize);
      if |chunk| == 0 {
        break;
      }
      var d := DecryptChunk(chunk, key, iv, number, aes);
      if d.Raised? {
        stopped := true;
        break;
      }
      YieldedAppend(chunksRead, chunk, Consecutive, key, iv, aes);
      FullInvStep(file, pos, chunksRead, chunk);
      chunksRead := chunksRead + [chunk];
      out := out + Emitted(d);
      pos := pos + |chunk|;
      number := number + 1;
    }
    FullPost(file, pos, chunksRead, key, iv, stopped);
  }

  /** The state of the full-file loop: the reads so far are the file's
      prefix up to `pos`, each at most one chunk and all but the last exactly
      one chunk; a short read happens only at the end of the file. */
  ghost predicate FullInv(file: seq<byte>, pos: nat, chunksRead: seq<seq<byte>>) {
    && pos == |Flatten(chunksRead)| <= |file|
    && Flatten(chunksRead) == file[..pos]
    && (forall i :: 0 <= i < |chunksRead| ==>
          (|chunksRead[i]| == ChunkSize || (i == |chunksRead| - 1 && 0 < |chunksRead[i]| < ChunkSize)))
    && (|chunksRead| > 0 && |chunksRead[|chunksRead| - 1]| < ChunkSize ==> pos == |file|)
  }

  /** The cipher could be set up for every chunk number below `count`. */
  ghost predicate NoneFail(count: nat, key: seq<byte>, iv: seq<byte>) {
    forall i: nat :: i < count ==> !SetupFails(key, iv, i)
  }

  lemma FullInvInit(file: seq<byte>)
    ensures FullInv(file, 0, [])
  {
    var none: seq<seq<byte>> := [];
    assert Flatten(none) == [];
  }

  lemma FullInvStep(file: seq<byte>, pos: nat, chunksRead: seq<seq<byte>>, chunk: seq<byte>)
    requires FullInv(file, pos, chunksRead)
    requires chunk == Read(file, pos, ChunkSize) && |chunk| > 0
    ensures pos + |chunk| <= |file|
    ensures FullInv(file, pos + |chunk|, chunksRead + [chunk])
  {
    FlattenAppend(chunksRead, chunk);
    assert file[..pos] + file[pos..pos + |chunk|] == file[..pos + |chunk|];
    var next := chunksRead + [chunk];
    forall i | 0 <= i < |next|
      ensures |next[i]| == ChunkSize || (i == |next| - 1 && 0 < |next[i]| < ChunkSize)
    {
      if i < |chunksRead| {
        assert next[i] == chunksRead[i];
      }
    }
  }

  /** How the full-file loop ends: at the first empty read, at the end of the
      file, or when the cipher cannot be set up for the next chunk's number,
      which after a first successful chunk means the number reached 2^128. */
  lemma FullPost(file: seq<byte>, pos: nat, chunksRead: seq<seq<byte>>, key: seq<byte>, iv: seq<byte>, stopped: bool)
    requires FullInv(file, pos, chunksRead)
    requires NoneFail(|chunksRead|, key, iv)
    requires stopped ==> |Read(file, pos, ChunkSize)| > 0 && SetupFails(key, iv, |chunksRead|)
    requires !stopped ==> |Read(file, pos, ChunkSize)| == 0
    ensures forall i :: 0 <= i < |chunksRead| ==>
      (|chunksRead[i]| == ChunkSize || (i == |chunksRead| - 1 && 0 < |chunksRead[i]| < ChunkSize))
    ensures |Flatten(chunksRead)| <= |file| && Flatten(chunksRead) == file[..|Flatten(chunksRead)|]
    ensures !stopped ==> Flatten(chunksRead) == file
    ensures stopped ==> |Flatten(chunksRead)| < |file| && SetupFails(key, iv, |chunksRead|)
    ensures forall i :: 0 <= i < |chunksRead| ==> !SetupFails(key, iv, i)
    ensures stopped && |chunksRead| > 0 ==> |chunksRead| >= Pow256(16)
  {
    if stopped && |chunksRead| > 0 {
      assert !SetupFails(key, iv, 0);
    }
  }

  /** A chunk whose length is not a multiple of the block size is never sent. */
  lemma UnalignedChunkSendsNothing(c: seq<byte>, k: Numbering, key: seq<byte>, iv: seq<byte>, aes: Cipher)
    requires |c| % BlockSize != 0
    ensures Yielded([c], k, key, iv, aes) == []
  {
    assert [c][..0] == [];
  }

  /** `b` is the plaintext some chunk of `chunks` decrypts to, under its own number. */
  ghost predicate SentFrom(b: seq<byte>, chunks: seq<seq<byte>>, k: Numbering, key: seq<byte>, iv: seq<byte>, aes: Cipher) {
    exists i :: 0 <= i < |chunks| && DecryptChunk(chunks[i], key, iv, NumberOf(k, i), aes) == Plain(b)
  }

  /** At most one piece is sent per chunk read. */
  lemma {:induction false} YieldedAtMostOnePerRead(chunks: seq<seq<byte>>, k: Numbering, key: seq<byte>, iv: seq<byte>, aes: Cipher)
    ensures |Yielded(chunks, k, key, iv, aes)| <= |chunks|
    decreases |chunks|
  {
    if |chunks| > 0 {
      YieldedAtMostOnePerRead(chunks[..|chunks| - 1], k, key, iv, aes);
    }
  }

  /** Every piece sent is the non-empty plaintext of a block-aligned chunk
      read, decrypted under that chunk's number. */
  lemma {:induction false} YieldedFromReads(chunks: seq<seq<byte>>, k: Numbering, key: seq<byte>, iv: seq<byte>, aes: Cipher, j: nat)
    requires j < |Yielded(chunks, k, key, iv, aes)|
    ensures SentFrom(Yielded(chunks, k, key, iv, aes)[j], chunks, k, key, iv, aes)
    ensures |Yielded(chunks, k, key, iv, aes)[j]| > 0
    decreases |chunks|
  {
    var i := |chunks| - 1;
    var yp := Yielded(chunks[..i], k, key, iv, aes);
    var d := DecryptChunk(chunks[i], key, iv, NumberOf(k, i), aes);
    var y := Yielded(chunks, k, key, iv, aes);
    assert y == yp + Emitted(d);
    if j < |yp| {
      YieldedFromReads(chunks[..i], k, key, iv, aes, j);
      SentFromLonger(yp[j], chunks, i, k, key, iv, aes);
      assert y[j] == yp[j];
    } else {
      assert y[j] == d.bytes;
    }
  }

  lemma SentFromLonger(b: seq<byte>, chunks: seq<seq<byte>>, m: nat, k: Numbering, key: seq<byte>, iv: seq<byte>, aes: Cipher)
    requires m <= |chunks|
    requires SentFrom(b, chunks[..m], k, key, iv, aes)
    ensures SentFrom(b, chunks, k, key, iv, aes)
  {
    var i :| 0 <= i < m && DecryptChunk(chunks[..m][i], key, iv, NumberOf(k, i), aes) == Plain(b);
    assert chunks[..m][i] == chunks[i];
  }
}

=== FILE: upload.dfy ===
/** The upload form: file selection by picker or drag-and-drop, the MIME
    allow-list, one upload request with progress reporting, and its outcome. */
module Upload {
  import opened Common

  const AllowedTypes: seq<string> := ["video/mp4", "video/avi", "video/quicktime", "video/x-matroska"]
  const InvalidTypeMessage: string := "Please select a valid video file (MP4, AVI, MOV, or MKV)"
  const NoFileMessage: string := "Please select a video file first"
  const UploadFailedMessage: string := "Failed to upload video"

  /** A browser `File`: its name, declared MIME type and size in bytes. */
  datatype FileInfo = FileInfo(name: string, mimeType: string, size: nat)

  datatype UploadState = UploadState(
    selected: Option<FileInfo>,
    uploading: bool,
    progress: int,
    error: Option<string>,
    dragActive: bool)

  datatype DragKind = DragEnter | DragOver | DragLeave

  /** How the request ended: the server accepted it, or it failed with the
      `error` field of the response body when there was one. */
  datatype Outcome = Uploaded | UploadFailed(serverError: Option<string>)

  const Initial: UploadState := UploadState(None, false, 0, None, false)

  predicate Allowed(f: FileInfo) {
    f.mimeType in AllowedTypes
  }

  /** `handleFile`: nothing for a missing file; an allowed file becomes the
      selection and clears the error; any other file only sets the error. */
  function HandleFile(s: UploadState, f: Option<FileInfo>): (t: UploadState)
    ensures f.None? ==> t == s
    ensures f.Some? && Allowed(f.value) ==> t == s.(selected := f, error := None)
    ensures f.Some? && !Allowed(f.value) ==> t == s.(error := Some(InvalidTypeMessage))
  {
    if f.None? then s
    else if !Allowed(f.value) then s.(error := Some(InvalidTypeMessage))
    else s.(selected := f, error := None)
  }

  /** Acceptance is exactly membership in the four allowed video types. */
  lemma AcceptsExactlyAllowedTypes(s: UploadState, f: FileInfo)
    ensures HandleFile(s, Some(f)).error == None <==>
      (f.mimeType == "video/mp4" || f.mimeType == "video/avi"
       || f.mimeType == "video/quicktime" || f.mimeType == "video/x-matroska")
    ensures HandleFile(s, Some(f)).selected == (if Allowed(f) then Some(f) else s.selected)
  {
  }

  /** `handleDrag`: entering or moving over the drop zone activates it, leaving deactivates it. */
  function HandleDrag(s: UploadState, k: DragKind): (t: UploadState)
    ensures t.dragActive <==> k != DragLeave
    ensures t == s.(dragActive := t.dragActive)
  {
    match k
    case DragEnter => s.(dragActive := true)
    case DragOver => s.(dragActive := true)
    case DragLeave => s.(dragActive := false)
  }

  /** `handleDrop`: deactivate the zone, then handle the first dropped file if any. */
  function HandleDrop(s: UploadState, files: seq<FileInfo>): (t: UploadState)
    ensures !t.dragActive
    ensures t == HandleFile(s.(dragActive := false), if |files| > 0 then Some(files[0]) else None)
  {
    var s' := s.(dragActive := false);
    if |files| > 0 then HandleFile(s', Some(files[0])) else s'
  }

  /** `handleFileSelect`: handle the first picked file if any. */
  function HandleFileSelect(s: UploadState, files: seq<FileInfo>): (t: UploadState)
    ensures |files| == 0 ==> t == s
    ensures |files| > 0 ==> t == HandleFile(s, Some(files[0]))
  {
    if |files| > 0 then HandleFile(s, Some(files[0])) else s
  }

  /** JavaScript `Math.round(loaded * 100 / total)` on non-negative integers, or 0 when
      the total is unknown or zero: the nearest whole percentage, halves rounded up. */
  function ProgressPercent(loaded: nat, total: Option<nat>): (p: nat)
    ensures total.None? || total.value == 0 ==> p == 0
    ensures total.Some? && total.value > 0 ==>
      2 * total.value * p <= 200 * loaded + total.value < 2 * total.value * (p + 1)
  {
    if total.None? || total.value == 0 then 0
    else (200 * loaded + total.value) / (2 * total.value)
  }

  /** Progress lies in [0, 100] while no more than the total has been sent. */
  lemma ProgressBounded(loaded: nat, total: nat)
    requires loaded <= total
    ensures 0 <= ProgressPercent(loaded, Some(total)) <= 100
    ensures loaded == total && total > 0 ==> ProgressPercent(loaded, Some(total)) == 100
  {
    if total > 0 {
      var p := ProgressPercent(loaded, Some(total));
      var c := 2 * total;
      assert c * p <= 200 * loaded + total <= 200 * total + total;
      assert 200 * total + total < c * 101;
      CancelFactor(c, p, 101);
      if loaded == total {
        assert c * 100 < 201 * total < c * (p + 1);
        CancelFactor(c, 100, p + 1);
      }
    }
  }

  /** For a fixed total, more bytes sent never gives a smaller percentage. */
  lemma ProgressMonotone(l1: nat, l2: nat, total: nat)
    requires l1 <= l2
    ensures ProgressPercent(l1, Some(total)) <= ProgressPercent(l2, Some(total))
  {
    if total > 0 {
      var p1, p2 := ProgressPercent(l1, Some(total)), ProgressPercent(l2, Some(total));
      var c := 2 * total;
      assert c * p1 <= 200 * l1 + total <= 200 * l2 + total < c * (p2 + 1);
      CancelFactor(c, p1, p2 + 1);
    }
  }

  lemma CancelFactor(c: int, x: int, y: int)
    requires c > 0 && c * x < c * y
    ensures x < y
  {
  }

  /** Pressing "Upload Video". The button is disabled while uploading, so the
      click is ignored then; with no selection it only reports; otherwise the
      request for the selected file is sent. */
  function ClickUpload(s: UploadState): (r: (UploadState, Option<FileInfo>))
    ensures s.uploading ==> r == (s, None)
    ensures !s.uploading && s.selected.None? ==> r == (s.(error := Some(NoFileMessage)), None)
    ensures !s.uploading && s.selected.Some? ==>
      r.1 == s.selected && r.0 == s.(uploading := true, error := None)
  {
    if s.uploading then (s, None)
    else if s.selected.None? then (s.(error := Some(NoFileMessage)), None)
    else (s.(uploading := true, error := None), s.selected)
  }

  /** `onUploadProgress`. */
  function OnProgress(s: UploadState, loaded: nat, total: Option<nat>): (t: UploadState)
    ensures t.progress == ProgressPercent(loaded, total)
    ensures t.(progress := s.progress) == s
  {
    s.(progress := ProgressPercent(loaded, total))
  }

  /** The message shown for a failed upload: the server's text when it is non-empty. */
  function FailureMessage(serverError: Option<string>): (m: string)
    ensures Truthy(serverError) ==> m == serverError.value
    ensures !Truthy(serverError) ==> m == UploadFailedMessage
    ensures m != ""
  {
    if Truthy(serverError) then serverError.value else UploadFailedMessage
  }

  /** The request settles. Success clears the selection and signals the
      parent once; failure sets the message and keeps the selection; either
      way the form stops uploading and its progress returns to 0. The second
      component tells whether `onUploadSuccess` was called. */
  function Finish(s: UploadState, o: Outcome): (r: (UploadState, bool))
    ensures !r.0.uploading && r.0.progress == 0
    ensures r.1 <==> o.Uploaded?
    ensures o.Uploaded? ==> r.0.selected.None? && r.0.error == s.error
    ensures o.UploadFailed? ==>
      r.0.selected == s.selected && r.0.error == Some(FailureMessage(o.serverError))
    ensures r.0.dragActive == s.dragActive
  {
    var t := match o
      case Uploaded => s.(selected := None)
      case UploadFailed(e) => s.(error := Some(FailureMessage(e)));
    (t.(uploading := false, progress := 0), o.Uploaded?)
  }

  /** `handleClearFile`, allowed from any state. */
  function ClearFile(s: UploadState): (t: UploadState)
    ensures t.selected.None? && t.error.None? && t.progress == 0
    ensures t.uploading == s.uploading && t.dragActive == s.dragActive
  {
    s.(selected := None, error := None, progress := 0)
  }

  /** While progress events only report bytes within the total, every state
      reached from a bounded one has its percentage in [0, 100]. */
  ghost predicate ProgressInRange(s: UploadState) {
    0 <= s.progress <= 100
  }

  lemma TransitionsKeepProgressInRange(s: UploadState, loaded: nat, total: nat, o: Outcome)
    requires ProgressInRange(s)
    requires loaded <= total
    ensures ProgressInRange(OnProgress(s, loaded, Some(total)))
    ensures ProgressInRange(OnProgress(s, loaded, None))
    ensures ProgressInRange(Finish(s, o).0)
    ensures ProgressInRange(ClearFile(s))
    ensures ProgressInRange(ClickUpload(s).0)
  {
    ProgressBounded(loaded, total);
  }

  /** Select `movie.mp4`, upload, report 0, 37 and 100 percent, succeed: the
      form is idle again with no selection, and the parent is signalled once. */
  lemma UploadScenario(size: nat)
    requires size > 0
    ensures var f := FileInfo("movie.mp4", "video/mp4", size);
      var s1 := HandleFile(Initial, Some(f));
      var (s2, req) := ClickUpload(s1);
      var s3 := OnProgress(s2, 0, Some(100));
      var s4 := OnProgress(s3, 37, Some(100));
      var s5 := OnProgress(s4, 100, Some(100));
      var (s6, signalled) := Finish(s5, Uploaded);
      && req == Some(f) && s2.uploading
      && s3.progress == 0 && s4.progress == 37 && s5.progress == 100
      && signalled && s6 == Initial
  {
  }
}
